=== FILE: README.md ===
# matkafun-live — a Dafny model of the client-side rules

matkafun-live is a mobile Satta Matka betting front end over a remote backend.
Most of it is rendering and backend calls. This project models the parts of the
front end that decide something on their own:

- the **local wallet ledger** (`useLocalWallet.ts`): a balance seeded with ₹10000,
  plus withdrawal and transaction lists. `withdraw` and `addMoney` change the
  balance and put exactly one new record at the front of each list they touch;
- the **market-open rule** of the home screen (`isGameOpen`), including windows
  that close after midnight. The same screen's game filter and ticker text are
  modelled too;
- the **input checks and formatters**:
  - bet validation and the potential-win preview (`PlayPage.tsx`);
  - add-money and the UPI, bank and Stripe withdrawal forms, with the card-number
    and expiry formatters (`WalletPage.tsx`);
  - e-mail, phone, password and registration checks, the Google-login arguments,
    and how backend error messages are sorted (`ProfilePage.tsx`);
- the **history totals and badges** (`HistoryPage.tsx`);
- the **bottom navigation bar** (`BottomNav.tsx`).

Several inputs are parameters:
- the clock, as a minute of the day or as a `now` timestamp;
- the stored wallet keys, each absent, a number, or unreadable;
- the login and admin flags;
- the built-in seed game list.

Modules:

| file | module | models |
|---|---|---|
| `js_text.dfy` | `JsText` | the JavaScript string and number built-ins the pages use, on ASCII |
| `ledger.dfy` | `Ledger` | `useLocalWallet.ts` |
| `wallet_forms.dfy` | `WalletForms` | `WalletPage.tsx` |
| `market.dfy` | `Market` | `HomePage.tsx` |
| `play.dfy` | `Play` | `PlayPage.tsx` |
| `profile.dfy` | `Profile` | `ProfilePage.tsx` |
| `history.dfy` | `History` | `HistoryPage.tsx` |
| `nav.dfy` | `Nav` | `BottomNav.tsx` |

Two things the code deliberately does not have:
- Games have no "result pending" state. `isGameOpen` is a plain boolean.
- The wallet hook has no positive-amount check. The ₹100 floors exist only in the
  wallet page's handlers.

## Model

| member | source | states |
|---|---|---|
| Ledger.GetBalance | src/frontend/src/hooks/useLocalWallet.ts:32-40 | An absent balance reads as 10000 and the seed is written. A stored number reads as itself. An unparseable value reads as 10000 and the store is left alone. The lists are never touched. |
| Ledger.SeedingHappensOnce | src/frontend/src/hooks/useLocalWallet.ts:32-40 | A second read sees the persisted seed and writes nothing. Seeding never changes the value a read returns. |
| Ledger.UnreadableListsReadEmpty | src/frontend/src/hooks/useLocalWallet.ts:46-64 | Each list is read on its own. A missing or corrupt withdrawals record reads as the empty list, whatever the transactions record holds, and the other way round. A parsed record reads as its items. |
| Ledger.Withdraw | src/frontend/src/hooks/useLocalWallet.ts:85-114 | The call fails exactly when the amount exceeds the balance read. On failure the visible balance and lists are unchanged. On success the balance drops by exactly the amount. One approved withdrawal with id and timestamp `now` is put in front. One debit "Withdrawal - "+method with id `now+1` is put in front. Nothing else in the lists changes. |
| Ledger.AddMoney | src/frontend/src/hooks/useLocalWallet.ts:121-133 | The balance rises by exactly the amount. One credit "Money Added" with id `now` is put in front of the transactions. The withdrawals are unchanged. |
| Ledger.LedgerInvariantFromFreshStore | src/frontend/src/hooks/useLocalWallet.ts:85-133 | Starting from an empty store, after any sequence of add-money and withdraw calls: balance = 10000 + total credits − total debits. Total debits = total withdrawn. |
| Ledger.RunKeepsConsistent | src/frontend/src/hooks/useLocalWallet.ts:85-133 | Every operation sequence keeps the ledger invariant from any consistent store. |
| Ledger.BalanceStaysNonNegative | src/frontend/src/hooks/useLocalWallet.ts:88-123 | Suppose the balance starts non-negative and every added amount is non-negative. Then the balance is never negative after any operation sequence. |
| Ledger.RunOnlyPrepends | src/frontend/src/hooks/useLocalWallet.ts:104-133 | After any sequence of operations, the earlier withdrawals and transactions lists are suffixes of the later ones. Records are only ever added at the front. |
| WalletForms.FormatCardNumber | src/frontend/src/pages/WalletPage.tsx:37-40 | The output's digits are the first 16 digits typed, in order. Each character is a digit or a space, and a space stands exactly at every fifth position. With n digits kept, the output has n + (n − 1) / 4 characters, so a space is written only when another digit follows and the output never ends in a space. |
| WalletForms.FormatCardNumberIdempotent | src/frontend/src/pages/WalletPage.tsx:37-40 | Formatting a formatted card number changes nothing. |
| WalletForms.CardCheckOnFormattedField | src/frontend/src/pages/WalletPage.tsx:233-234 | On a formatted field, the card-length check passes exactly when at least 16 digits were typed. |
| WalletForms.FormatExpiry | src/frontend/src/pages/WalletPage.tsx:42-48 | The output keeps the first four digits typed and has at most 5 characters. It has 5 characters exactly when four digits were typed. With three or more digits, '/' stands third. With fewer, the output is the bare digits. |
| WalletForms.FormatExpiryIdempotent | src/frontend/src/pages/WalletPage.tsx:42-48 | Formatting a formatted expiry changes nothing. |
| WalletForms.HandleAddMoney | src/frontend/src/pages/WalletPage.tsx:160-169 | An amount that is not a number, or is below 100, is refused with the store untouched. Otherwise the balance rises by exactly the parsed amount and one credit is put in front. |
| WalletForms.Payout | src/frontend/src/pages/WalletPage.tsx:185-192 | The hook refuses exactly when the amount exceeds the balance. Within the balance it pays out. Over it, the error is "Insufficient balance" and the wallet reads as before. |
| WalletForms.HookRefusalShowsBalanceToast | src/frontend/src/pages/WalletPage.tsx:185-192 | When the hook refuses an amount over the balance, the toast is the page's own "Insufficient balance" text. |
| WalletForms.HandleWithdrawUpi | src/frontend/src/pages/WalletPage.tsx:171-193 | The checks run in order: amount at least 100, '@' in the id, amount within the balance. Each refusal leaves the store untouched. Success pays out with method "UPI: "+id and details "Withdrawal to UPI: "+id. The new row is not a Stripe row. |
| WalletForms.HandleWithdrawBank | src/frontend/src/pages/WalletPage.tsx:195-225 | The checks run in order: amount at least 100, all three bank fields filled, amount within the balance. With a valid amount and filled fields, an amount over the balance is refused with the "Insufficient balance" toast. Refusals leave the store untouched. Success pays out with method "Bank: "+account and details naming account and IFSC. The holder is checked but not recorded. The row is not a Stripe row. |
| WalletForms.CardError | src/frontend/src/pages/WalletPage.tsx:233-249 | No card error exactly when all of these hold: at least 16 non-space card characters, a non-blank holder, an expiry of at least 5 characters, and a CVV of at least 3. Otherwise the error is the first failed check, in that order: card number, holder, expiry, CVV. |
| WalletForms.HandleWithdrawStripe | src/frontend/src/pages/WalletPage.tsx:227-261 | The checks run in order: amount, then the card checks, then the balance. With a valid amount and valid card fields, an amount over the balance is refused with the "Insufficient balance" toast. Refusals leave the store untouched. Success pays out with method "Stripe: ****"+the last four card characters. The new row is a Stripe row. |
| WalletForms.StripeRowClassification | src/frontend/src/pages/WalletPage.tsx:91 | A row written by the UPI or bank form is never shown as a Stripe row. A row written by the card form always is. |
| WalletForms.PageMessagesAreDistinct | src/frontend/src/pages/WalletPage.tsx:160-261 | The page's own refusals each show a different toast. |
| WalletForms.FormattedCardFields | src/frontend/src/pages/WalletPage.tsx:233-245 | With formatted fields, the card checks pass exactly when all of these hold: 16 card digits and 4 expiry digits were typed, the holder is non-blank, and the CVV has at least 3 characters. |
| Market.IsGameOpen | src/frontend/src/pages/HomePage.tsx:22-33 | A same-day window is open iff open ≤ now < close. An overnight window (close < open) is open iff now ≥ open or now < close. |
| Market.OpenIffWithinWindow | src/frontend/src/pages/HomePage.tsx:27-32 | Both cases follow one rule: a game is open iff the minutes since opening, counted round the clock, are fewer than the window's length. |
| Market.WindowBoundaries | src/frontend/src/pages/HomePage.tsx:28-32 | The opening minute is open unless open = close. The closing minute is closed. A window with open = close is never open. |
| Market.GamesShown | src/frontend/src/pages/HomePage.tsx:41 | The live list is used when it is non-empty. Otherwise the seed list is used. |
| Market.GamesShownNeverEmpty | src/frontend/src/pages/HomePage.tsx:41 | With a non-empty seed list the list shown is never empty. Feeding the shown list back in as the live list shows it again. |
| Market.FilterGames | src/frontend/src/pages/HomePage.tsx:43-51 | A game is kept iff two things hold. Its session matches the tab, or the tab is "All". Its lower-cased name contains the lower-cased query. The result is a subsequence of the list, in order. |
| Market.InitialScreenListsEverything | src/frontend/src/pages/HomePage.tsx:37-51 | With the initial tab "All" and an empty search, every game is listed in order. |
| Market.TickerText | src/frontend/src/pages/HomePage.tsx:54-60 | The ticker is the fixed closed text exactly when no game is open. Otherwise it starts with the first open game's "✦ name: OPEN" label and ends with the last one's. |
| Market.TickerListsOpenLabelsInOrder | src/frontend/src/pages/HomePage.tsx:54-60 | While a game is open, the ticker is every open game's label, in list order, with one separator between neighbours and nothing else. |
| JsText.JoinLayout | src/frontend/src/pages/HomePage.tsx:60 | `join` puts each part at its offset, with exactly one separator between neighbours and nothing after the last part. |
| JsText.JoinedInOrderIsJoin | src/frontend/src/pages/HomePage.tsx:60 | Any text laid out that way is the join, so the layout fixes the ticker character by character. |
| Play.PotentialWinOfTypedAmount | src/frontend/src/pages/PlayPage.tsx:63-66 | A typed amount n previews n × the multiplier: open 9, close 9, jodi 90, panel 150. An empty box previews 0. |
| Play.PotentialWinMonotone | src/frontend/src/pages/PlayPage.tsx:63-66 | A larger parsed stake never previews a smaller win. |
| Play.PotentialWin | src/frontend/src/pages/PlayPage.tsx:63-66 | The preview is 0 iff the stake reads as 0 or as no number. A non-negative stake previews at least 9 times itself. |
| Play.MultiplierRanking | src/frontend/src/pages/PlayPage.tsx:30-42 | Open and close both pay 9. Jodi pays more than close, and panel more than jodi. No bet type pays less than 9. |
| Play.Validate | src/frontend/src/pages/PlayPage.tsx:70-88 | There is no error iff the user is logged in, 10 ≤ amount ≤ balance, and the number has exactly the bet type's digit count. "Not logged in" is reported iff the user is logged out. Then come, in order: blank number, unparsable or below-10 amount, amount over balance. A logged-in user with a non-blank number and an allowed amount whose number does not fit gets exactly the bet type's shape error. |
| Play.ShapeCheck | src/frontend/src/pages/PlayPage.tsx:76-87 | The three shape checks accept exactly the numbers with the bet type's digit count: 1 for open and close, 2 for jodi, 3 for panel, all digits. A refusal is always the bet type's own shape error. |
| Play.MessagesAreDistinct | src/frontend/src/pages/PlayPage.tsx:70-88 | Each bet refusal shows a different toast. |
| Profile.EmailCheckMatchesPattern | src/frontend/src/pages/ProfilePage.tsx:217-218 | Splitting at the first '@' and checking the parts accepts exactly the addresses that the position-wise reading of the pattern accepts. |
| Profile.GoogleContinue | src/frontend/src/pages/ProfilePage.tsx:215-225 | The role dialog opens exactly for addresses of the form L@D. L is non-empty. Neither part contains '@' or whitespace. D has a '.' with characters on both sides. |
| Profile.LocalPart | src/frontend/src/pages/ProfilePage.tsx:237 | The display name is the address up to its first '@'. It contains no '@'. |
| Profile.GoogleLogin | src/frontend/src/pages/ProfilePage.tsx:227-244 | With no role selected, the login is refused. With the admin role and a blank code, it is also refused. Otherwise the call carries the address and its local part. `wantsAdmin` holds iff the admin role was selected. The code is the trimmed code for admin and "" for user. |
| Profile.ClassifyGoogleFailure | src/frontend/src/pages/ProfilePage.tsx:255-282 | An error counts as a rejected admin code iff it mentions "Invalid admin", "admin code" or "wrong code", or "unauthorized" in any case. Otherwise "already" or "exists" means already registered. |
| Profile.AdminCodeComplaintTakesPrecedence | src/frontend/src/pages/ProfilePage.tsx:257-265 | An admin-code complaint is never treated as "already registered". |
| Profile.UnauthorizedInAnyCase | src/frontend/src/pages/ProfilePage.tsx:261 | "Unauthorized" in any letter case marks a rejected admin code. |
| Profile.RetryAsUser | src/frontend/src/pages/ProfilePage.tsx:267-273 | The retry keeps the address and display name and asks for a plain user with no code. |
| Profile.RetryIsPlainUserLogin | src/frontend/src/pages/ProfilePage.tsx:266-273 | For any role, the retry after "already registered" is the same call as a plain user's login with the same address. |
| Profile.GoogleFailureMessagesAreDistinct | src/frontend/src/pages/ProfilePage.tsx:255-282 | The three Google outcomes show three different toasts. |
| Profile.AlreadyRegisteredAgrees | src/frontend/src/pages/ProfilePage.tsx:264-361 | A message the Google flow reads as "already registered" is read by registration as a taken phone number too. |
| Profile.ValidateLogin | src/frontend/src/pages/ProfilePage.tsx:286-295 | Login proceeds iff the phone is exactly 10 digits and the password has at least 6 characters. The phone is checked first. |
| Profile.ClassifyLoginFailure | src/frontend/src/pages/ProfilePage.tsx:306-316 | An error counts as wrong credentials iff it mentions "Invalid", "invalid" or "not found". |
| Profile.WrongCredentialsInAnyWording | src/frontend/src/pages/ProfilePage.tsx:306-316 | A message read as wrong credentials is still read that way with any text around it. |
| Profile.ValidateRegister | src/frontend/src/pages/ProfilePage.tsx:319-336 | Registration proceeds iff the name is not blank, the phone is 10 digits, the password has at least 6 characters, and it equals the confirmation. The checks run in that order. When the first three pass and the confirmation differs, the error is the mismatch. |
| Profile.ClassifyRegisterFailure | src/frontend/src/pages/ProfilePage.tsx:351-361 | An error counts as an already registered phone iff it mentions "already", "exists" or "registered". |
| Profile.PhoneTakenInAnyWording | src/frontend/src/pages/ProfilePage.tsx:351-361 | A message read as a taken phone number is still read that way with any text around it. |
| Profile.MessagesAreDistinct | src/frontend/src/pages/ProfilePage.tsx:215-336 | Each sign-in check failure shows a different toast. |
| Profile.FailureMessagesAreDistinct | src/frontend/src/pages/ProfilePage.tsx:306-361 | The two outcomes of a failed login show different toasts, and so do the two outcomes of a failed registration. |
| History.FindGame | src/frontend/src/pages/HistoryPage.tsx:9 | The search returns the first seed game with the id, or nothing exactly when no seed game has it. |
| History.GameName | src/frontend/src/pages/HistoryPage.tsx:8-11 | A known id shows the seed game's name. An unknown id shows the id with letters in capitals and every '-' replaced by a space. |
| History.UnknownGameName | src/frontend/src/pages/HistoryPage.tsx:8-11 | A worked example of the general fallback that `History.GameName` states: "milan-day", unknown to the seed list, is shown as "MILAN DAY". |
| History.WonBets | src/frontend/src/pages/HistoryPage.tsx:129 | A bet is among the won bets iff it is in the list with status "won". The won bets keep the list order. |
| History.WonBetsKeepsCounts | src/frontend/src/pages/HistoryPage.tsx:129 | Every won bet appears among the won bets as often as in the list. Every other bet does not appear. |
| History.TotalWonIsNineTimesWonStake | src/frontend/src/pages/HistoryPage.tsx:128-130 | The winnings shown are 9 × the total stake of the won bets, whatever the bet type. |
| History.StakeSplitsByOutcome | src/frontend/src/pages/HistoryPage.tsx:128-129 | The total staked is the stake of the won bets plus the stake of all the others. |
| History.StakeOfConcat | src/frontend/src/pages/HistoryPage.tsx:128 | The total stake of two lists one after the other is the sum of their totals. |
| History.WinningsBoundedByStake | src/frontend/src/pages/HistoryPage.tsx:128-130 | If no stake is negative, then 0 ≤ winnings ≤ 9 × total staked. |
| History.DemoTotals | src/frontend/src/pages/HistoryPage.tsx:128-130 | The demo list shows 1000 staked and 2250 won. |
| History.DemoBetBadges | src/frontend/src/pages/HistoryPage.tsx:60-101 | The demo list has five bets, numbered 1 to 5. Their badges are Won, Lost, Pending, Won, Pending. Its won bets are the first and the fourth. |
| History.BadgeFor | src/frontend/src/pages/HistoryPage.tsx:103-123 | "won" maps to Won and "lost" to Lost. Every other status maps to Pending. |
| History.WonBetsAreWonBadges | src/frontend/src/pages/HistoryPage.tsx:103-129 | The bets counted as won are exactly the rows showing a Won badge. |
| Nav.NavItems | src/frontend/src/components/BottomNav.tsx:5-23 | The base tabs always come first, in order: Home, Play, Wallet, History, Profile. An admin gets exactly one more tab, Admin, last. A non-admin gets exactly the base tabs. |
| Nav.HomeActiveOnlyAtRoot | src/frontend/src/components/BottomNav.tsx:36-37 | Home is highlighted iff the route is exactly "/". |
| Nav.ActiveIffExtendsPath | src/frontend/src/components/BottomNav.tsx:36-37 | Every tab but Home is highlighted exactly on routes that extend its path. |
| Nav.DeepLinkActivatesTab | src/frontend/src/components/BottomNav.tsx:36-37 | Every tab except Home is highlighted on any route that extends its path. |
| Nav.PlayDeepLink | src/frontend/src/components/BottomNav.tsx:36-37 | A game page "/play/"+id highlights Play and not Home. |
| Nav.AtMostOneActive | src/frontend/src/components/BottomNav.tsx:36-37 | No route highlights two tabs, with or without the admin tab. |
| JsText.ParseIntDecimal | src/frontend/src/pages/PlayPage.tsx:64 | `Number.parseInt` reads back the decimal digits of any natural number. |
| JsText.ContainsLowered | src/frontend/src/pages/HomePage.tsx:46-48 | A substring is still found after lower-casing both sides. |

## Left out

- Clock and timezone handling is left out: `tsToMinutes`, `timestampToTime`, `formatDate`, the 7-hour shift and the one-second timers. The model takes the minute of day (0..1439) and the `now` timestamp as inputs.
- `inrToUsd` and the USD amount shown with each withdrawal are left out. They are floating-point display values and never affect a decision.
- localStorage and JSON are left out. Each key is modelled as absent, a number or unreadable (balance), and missing, corrupt or parsed (lists). A corrupt list reads as empty, as the code's `catch` does.
- A list key whose JSON parses to a value that cannot be iterated ("null", "5", "true", "{}") is neither missing nor corrupt in the code. The list spread then throws after the balance has already been written (`useLocalWallet.ts` line 92). It throws at line 104 for a bad withdrawals list, or at line 114, after the withdrawals were saved, for a bad transactions list; `addMoney` throws at line 133 after writing the balance. Those partial writes break the ledger invariant in the code. A list key whose JSON is a string (such as "\"ab\"") does not throw: the spread at lines 104, 114 and 133 turns the string into one-character entries, and the list is saved with them and without error. The model reads both kinds of key as corrupt, that is as empty, so the all-or-nothing update proved by `Ledger.RunKeepsConsistent` holds for the model, not for the code, and the saved list does not keep the string's characters.
- One `now` is used for each call. The hook calls `Date.now()` several times per call, and those calls are taken to return the same value.
- Races between browser tabs are left out, since the model is sequential.
- JavaScript text semantics are approximated on ASCII:
  - `\s`, `trim`, and the case conversions cover only ASCII characters;
  - `Number.parseInt` has no `0x` prefix and no precision loss on long digit strings;
  - `length` counts characters, not UTF-16 code units.
- The backend is left out: login state, the admin flag and the wallet balance used by the play screen are parameters. The login, registration, Google-login and bet calls are left out. Only how their error messages are classified is modelled.
- Ledger.Withdraw: the thrown "Insufficient balance" error is modelled as an error value. Every page handler checks the balance first, so none of them reaches the throw.
- `AdminPage.tsx`, `GameCard.tsx`, `App.tsx` and the query hooks are left out. They only render or forward backend calls.
- Toasts, rendering and navigation effects are left out. Only the message each refusal would show is modelled.
- The built-in seed game list (`data/seedGames`) is not part of this model. It is a parameter of the home and history screens.

Two behaviours of the code are kept as written:
- The history header multiplies every won bet by 9, whatever its type (`History.TotalWonIsNineTimesWonStake`).
- Tab highlighting is a plain prefix test, so a route such as "/playground" would also highlight Play (`Nav.DeepLinkActivatesTab`).

=== FILE: history.dfy ===
/** The bet history screen (`HistoryPage.tsx`): display names of games, the demo bet
    list, the totals in its header and the status badge of each row. The seed game
    list is a parameter.
 */
module History {
  import opened JsText
  import Market

  // ---------------------------------------------------------------------------
  // Game names

  /** `SEED_GAMES.find(g => g.id === gameId)`: the first seed game with that id. */
  function FindGame(seed: seq<Market.Game>, gameId: string): (r: Option<Market.Game>)
    ensures r.Some? ==> r.value in seed && r.value.id == gameId
    ensures r.None? <==> forall g :: g in seed ==> g.id != gameId
    ensures r.Some? ==> exists k :: 0 <= k < |seed| && seed[k] == r.value
                                    && forall j :: 0 <= j < k ==> seed[j].id != gameId
    decreases |seed|
  {
    if |seed| == 0 then None
    else if seed[0].id == gameId then Some(seed[0])
    else
      var rest := FindGame(seed[1..], gameId);
      if rest.Some? then
        ShiftFirstMatch(seed, gameId, rest.value);
        rest
      else
        rest
  }

  lemma ShiftFirstMatch(seed: seq<Market.Game>, gameId: string, g: Market.Game)
    requires |seed| > 0 && seed[0].id != gameId
    requires exists k :: 0 <= k < |seed| - 1 && seed[1..][k] == g
                         && forall j :: 0 <= j < k ==> seed[1..][j].id != gameId
    ensures exists k :: 0 <= k < |seed| && seed[k] == g
                        && forall j :: 0 <= j < k ==> seed[j].id != gameId
  {
    var k :| 0 <= k < |seed| - 1 && seed[1..][k] == g
             && forall j :: 0 <= j < k ==> seed[1..][j].id != gameId;
    assert seed[k + 1] == g;
    forall j | 0 <= j < k + 1 ensures seed[j].id != gameId {
      if j > 0 {
        assert seed[j] == seed[1..][j - 1];
      }
    }
  }

  /** `s.replace(/-/g, " ")`. */
  function DashesToSpaces(s: string): (r: string)
    ensures |r| == |s| && '-' !in r
    ensures forall i :: 0 <= i < |s| ==> (r[i] == ' ' <==> s[i] == '-' || s[i] == ' ')
    ensures forall i :: 0 <= i < |s| && s[i] != '-' ==> r[i] == s[i]
  {
    seq(|s|, i requires 0 <= i < |s| => if s[i] == '-' then ' ' else s[i])
  }

  /** `getGameName`: the seed game's name, or else the id in capitals with its dashes
      turned into spaces. */
  function GameName(seed: seq<Market.Game>, gameId: string): (r: string)
    ensures FindGame(seed, gameId).Some? ==> r == FindGame(seed, gameId).value.name
    ensures (forall g :: g in seed ==> g.id != gameId) ==>
      && |r| == |gameId| && '-' !in r
      && forall i :: 0 <= i < |gameId| ==> r[i] == (if gameId[i] == '-' then ' ' else UpperChar(gameId[i]))
  {
    match FindGame(seed, gameId)
    case Some(g) => g.name
    case None => DashesToSpaces(ToUpper(gameId))
  }

  /** An id the seed list does not know is shown spelled out. */
  lemma UnknownGameName(seed: seq<Market.Game>)
    requires forall g :: g in seed ==> g.id != "milan-day"
    ensures GameName(seed, "milan-day") == "MILAN DAY"
  {
    var r := GameName(seed, "milan-day");
    assert |r| == 9;
    assert r[0] == 'M' && r[1] == 'I' && r[2] == 'L' && r[3] == 'A' && r[4] == 'N';
    assert r[5] == ' ' && r[6] == 'D' && r[7] == 'A' && r[8] == 'Y';
  }

  // ---------------------------------------------------------------------------
  // Bets and totals

  datatype Bet = Bet(id: nat, gameName: string, betType: string, betNumber: string, amount: int, status: string)

  /** `DEMO_BETS`, the rows the screen shows. */
  function DemoBets(seed: seq<Market.Game>): seq<Bet> {
    DemoRows(GameName(seed, "kalyan"), GameName(seed, "milan-day"), GameName(seed, "rajdhani-day"),
             GameName(seed, "star-tara-morning"), GameName(seed, "sridevi"))
  }

  /** The five demo rows, given the names their game ids resolve to. */
  function DemoRows(n1: string, n2: string, n3: string, n4: string, n5: string): seq<Bet> {
    [ Bet(1, n1, "Jodi", "43", 100, "won"),
      Bet(2, n2, "Open", "5", 50, "lost"),
      Bet(3, n3, "Panel", "135", 200, "pending"),
      Bet(4, n4, "Close", "7", 150, "won"),
      Bet(5, n5, "Jodi", "63", 500, "pending") ]
  }

  /** `bets.reduce((acc, b) => acc + b.amount, acc)`, folding from the left. */
  function StakeFrom(acc: int, bets: seq<Bet>): int
    decreases |bets|
  {
    if |bets| == 0 then acc else StakeFrom(acc + bets[0].amount, bets[1..])
  }

  /** `totalBet`. */
  function TotalStaked(bets: seq<Bet>): int {
    StakeFrom(0, bets)
  }

  /** `wonBets.reduce((acc, b) => acc + b.amount * 9, acc)`. */
  function WinningsFrom(acc: int, bets: seq<Bet>): int
    decreases |bets|
  {
    if |bets| == 0 then acc else WinningsFrom(acc + bets[0].amount * 9, bets[1..])
  }

  predicate IsWon(b: Bet) {
    b.status == "won"
  }

  /** `wonBets`: the won bets, in list order. */
  function WonBets(bets: seq<Bet>): (r: seq<Bet>)
    ensures forall b :: b in r <==> b in bets && b.status == "won"
    ensures IsSubsequence(r, bets)
    decreases |bets|
  {
    if |bets| == 0 then []
    else
      var rest := WonBets(bets[1..]);
      assert bets == [bets[0]] + bets[1..];
      if IsWon(bets[0]) then [bets[0]] + rest else rest
  }

  predicate IsNotWon(b: Bet) {
    !IsWon(b)
  }

  /** The bets that are not won, in list order. */
  function NotWonBets(bets: seq<Bet>): (r: seq<Bet>)
    ensures forall b :: b in r <==> b in bets && IsNotWon(b)
    decreases |bets|
  {
    if |bets| == 0 then []
    else
      var rest := NotWonBets(bets[1..]);
      assert bets == [bets[0]] + bets[1..];
      if IsNotWon(bets[0]) then [bets[0]] + rest else rest
  }

  lemma WonOfCons(x: Bet, rest: seq<Bet>)
    ensures WonBets([x] + rest) == if IsWon(x) then [x] + WonBets(rest) else WonBets(rest)
  {
    assert ([x] + rest)[1..] == rest;
  }

  lemma NotWonOfCons(x: Bet, rest: seq<Bet>)
    ensures NotWonBets([x] + rest) == if IsWon(x) then NotWonBets(rest) else [x] + NotWonBets(rest)
  {
    assert ([x] + rest)[1..] == rest;
  }

  /** `totalWon`. */
  function TotalWon(bets: seq<Bet>): int {
    WinningsFrom(0, WonBets(bets))
  }

  lemma {:induction false} StakeFromShifts(acc: int, bets: seq<Bet>)
    ensures StakeFrom(acc, bets) == acc + StakeFrom(0, bets)
    decreases |bets|
  {
    if |bets| > 0 {
      StakeFromShifts(acc + bets[0].amount, bets[1..]);
      StakeFromShifts(bets[0].amount, bets[1..]);
    }
  }

  lemma {:induction false} WinningsAreNineTimesStake(acc: int, bets: seq<Bet>)
    ensures WinningsFrom(acc, bets) == acc + 9 * StakeFrom(0, bets)
    decreases |bets|
  {
    if |bets| > 0 {
      WinningsAreNineTimesStake(acc + bets[0].amount * 9, bets[1..]);
      StakeFromShifts(bets[0].amount, bets[1..]);
    }
  }

  /** The header's winnings are nine times the stake of the won bets, whatever each
      bet's type (the screen does not use the type's own multiplier). */
  lemma TotalWonIsNineTimesWonStake(bets: seq<Bet>)
    ensures TotalWon(bets) == 9 * TotalStaked(WonBets(bets))
  {
    WinningsAreNineTimesStake(0, WonBets(bets));
  }

  lemma StakeOfCons(x: Bet, rest: seq<Bet>)
    ensures TotalStaked([x] + rest) == x.amount + TotalStaked(rest)
  {
    assert ([x] + rest)[1..] == rest;
    StakeFromShifts(x.amount, rest);
  }

  /** The total stake is the stake of the won bets plus the stake of the others. */
  lemma {:induction false} StakeSplitsByOutcome(bets: seq<Bet>)
    ensures TotalStaked(bets) == TotalStaked(WonBets(bets)) + TotalStaked(NotWonBets(bets))
    decreases |bets|
  {
    if |bets| > 0 {
      var x, rest := bets[0], bets[1..];
      assert bets == [x] + rest;
      StakeSplitsByOutcome(rest);
      WonOfCons(x, rest);
      NotWonOfCons(x, rest);
      StakeOfCons(x, rest);
      if IsWon(x) {
        StakeOfCons(x, WonBets(rest));
      } else {
        StakeOfCons(x, NotWonBets(rest));
      }
    }
  }

  /** With no negative stakes the winnings shown never exceed nine times the total. */
  lemma WinningsBoundedByStake(bets: seq<Bet>)
    requires forall i :: 0 <= i < |bets| ==> bets[i].amount >= 0
    ensures 0 <= TotalWon(bets) <= 9 * TotalStaked(bets)
  {
    TotalWonIsNineTimesWonStake(bets);
    StakeSplitsByOutcome(bets);
    StakeNonNegative(WonBets(bets));
    StakeNonNegative(NotWonBets(bets));
  }

  lemma {:induction false} StakeNonNegative(bets: seq<Bet>)
    requires forall b :: b in bets ==> b.amount >= 0
    ensures TotalStaked(bets) >= 0
    decreases |bets|
  {
    if |bets| > 0 {
      assert bets[0] in bets;
      StakeNonNegative(bets[1..]);
      StakeFromShifts(bets[0].amount, bets[1..]);
    }
  }

  /** Each bet keeps its multiplicity among the won bets, and the others are gone. */
  lemma {:induction false} WonBetsKeepsCounts(bets: seq<Bet>)
    ensures forall b :: multiset(WonBets(bets))[b] == if IsWon(b) then multiset(bets)[b] else 0
    decreases |bets|
  {
    if |bets| > 0 {
      var x, rest := bets[0], bets[1..];
      assert bets == [x] + rest;
      WonBetsKeepsCounts(rest);
      WonOfCons(x, rest);
      assert multiset(bets) == multiset{x} + multiset(rest);
      if IsWon(x) {
        assert multiset(WonBets(bets)) == multiset{x} + multiset(WonBets(rest));
      }
    }
  }

  /** The stake of two lists read one after the other is the sum of their stakes. */
  lemma {:induction false} StakeOfConcat(a: seq<Bet>, b: seq<Bet>)
    ensures TotalStaked(a + b) == TotalStaked(a) + TotalStaked(b)
    decreases |a|
  {
    if |a| > 0 {
      StakeOfConcat(a[1..], b);
      assert a + b == [a[0]] + (a[1..] + b);
      assert a == [a[0]] + a[1..];
      StakeOfCons(a[0], a[1..] + b);
      StakeOfCons(a[0], a[1..]);
    } else {
      assert a + b == b;
    }
  }

  /** The demo rows: five bets, of which the first and the fourth show as won. */
  lemma DemoBetBadges(seed: seq<Market.Game>)
    ensures |DemoBets(seed)| == 5
    ensures forall i :: 0 <= i < 5 ==> DemoBets(seed)[i].id == i + 1
    ensures forall i :: 0 <= i < 5 ==> BadgeFor(DemoBets(seed)[i].status) == [Won, Lost, Pending, Won, Pending][i]
    ensures WonBets(DemoBets(seed)) == [DemoBets(seed)[0], DemoBets(seed)[3]]
  {
    DemoRowBadges(GameName(seed, "kalyan"), GameName(seed, "milan-day"), GameName(seed, "rajdhani-day"),
                  GameName(seed, "star-tara-morning"), GameName(seed, "sridevi"));
  }

  lemma DemoRowBadges(n1: string, n2: string, n3: string, n4: string, n5: string)
    ensures |DemoRows(n1, n2, n3, n4, n5)| == 5
    ensures forall i :: 0 <= i < 5 ==> DemoRows(n1, n2, n3, n4, n5)[i].id == i + 1
    ensures forall i :: 0 <= i < 5 ==>
      BadgeFor(DemoRows(n1, n2, n3, n4, n5)[i].status) == [Won, Lost, Pending, Won, Pending][i]
    ensures WonBets(DemoRows(n1, n2, n3, n4, n5)) == [DemoRows(n1, n2, n3, n4, n5)[0], DemoRows(n1, n2, n3, n4, n5)[3]]
  {
    var bets := DemoRows(n1, n2, n3, n4, n5);
    var b0, b1, b2, b3, b4 := bets[0], bets[1], bets[2], bets[3], bets[4];
    assert bets == [b0, b1, b2, b3, b4];
    FiveBetBadges(b0, b1, b2, b3, b4);
    FiveBetWinners(b0, b1, b2, b3, b4);
  }

  lemma FiveBetBadges(b0: Bet, b1: Bet, b2: Bet, b3: Bet, b4: Bet)
    requires b0.status == "won" && b1.status == "lost" && b2.status == "pending"
    requires b3.status == "won" && b4.status == "pending"
    ensures forall i :: 0 <= i < 5 ==> BadgeFor([b0, b1, b2, b3, b4][i].status) == [Won, Lost, Pending, Won, Pending][i]
  {
    assert BadgeFor("won") == Won && BadgeFor("lost") == Lost && BadgeFor("pending") == Pending;
  }

  /** The header of the demo history: 1000 staked, 2250 won. */
  lemma DemoTotals(seed: seq<Market.Game>)
    ensures TotalStaked(DemoBets(seed)) == 1000
    ensures TotalWon(DemoBets(seed)) == 2250
  {
    DemoRowTotals(GameName(seed, "kalyan"), GameName(seed, "milan-day"), GameName(seed, "rajdhani-day"),
                  GameName(seed, "star-tara-morning"), GameName(seed, "sridevi"));
  }

  lemma DemoRowTotals(n1: string, n2: string, n3: string, n4: string, n5: string)
    ensures TotalStaked(DemoRows(n1, n2, n3, n4, n5)) == 1000
    ensures TotalWon(DemoRows(n1, n2, n3, n4, n5)) == 2250
  {
    var bets := DemoRows(n1, n2, n3, n4, n5);
    assert bets == [bets[0], bets[1], bets[2], bets[3], bets[4]];
    FiveBetTotals(bets[0], bets[1], bets[2], bets[3], bets[4]);
  }

  lemma FiveBetTotals(b0: Bet, b1: Bet, b2: Bet, b3: Bet, b4: Bet)
    requires b0.amount == 100 && b1.amount == 50 && b2.amount == 200 && b3.amount == 150 && b4.amount == 500
    requires IsWon(b0) && !IsWon(b1) && !IsWon(b2) && IsWon(b3) && !IsWon(b4)
    ensures TotalStaked([b0, b1, b2, b3, b4]) == 1000
    ensures TotalWon([b0, b1, b2, b3, b4]) == 2250
  {
    FiveBetStake(b0, b1, b2, b3, b4);
    FiveBetWinners(b0, b1, b2, b3, b4);
    TotalWonIsNineTimesWonStake([b0, b1, b2, b3, b4]);
    StakeOfCons(b3, []);
    StakeOfCons(b0, [b3]);
    assert [b0] + [b3] == [b0, b3];
    assert [b3] + [] == [b3];
  }

  lemma FiveBetStake(b0: Bet, b1: Bet, b2: Bet, b3: Bet, b4: Bet)
    ensures TotalStaked([b0, b1, b2, b3, b4]) == b0.amount + b1.amount + b2.amount + b3.amount + b4.amount
  {
    assert [b0, b1, b2, b3, b4] == [b0] + ([b1] + ([b2] + ([b3] + ([b4] + []))));
    StakeOfCons(b4, []);
    StakeOfCons(b3, [b4] + []);
    StakeOfCons(b2, [b3] + ([b4] + []));
    StakeOfCons(b1, [b2] + ([b3] + ([b4] + [])));
    StakeOfCons(b0, [b1] + ([b2] + ([b3] + ([b4] + []))));
  }

  lemma FiveBetWinners(b0: Bet, b1: Bet, b2: Bet, b3: Bet, b4: Bet)
    requires IsWon(b0) && !IsWon(b1) && !IsWon(b2) && IsWon(b3) && !IsWon(b4)
    ensures WonBets([b0, b1, b2, b3, b4]) == [b0, b3]
  {
    var none: seq<Bet> := [];
    var t4 := [b4] + none;
    var t3 := [b3] + t4;
    var t2 := [b2] + t3;
    var t1 := [b1] + t2;
    WonOfCons(b4, none);
    assert WonBets(t4) == [];
    WonOfCons(b3, t4);
    assert WonBets(t3) == [b3];
    WonOfCons(b2, t3);
    assert WonBets(t2) == [b3];
    WonOfCons(b1, t2);
    assert WonBets(t1) == [b3];
    WonOfCons(b0, t1);
    assert WonBets([b0] + t1) == [b0, b3];
    assert [b0, b1, b2, b3, b4] == [b0] + t1;
  }

  // ---------------------------------------------------------------------------
  // Badges

  datatype Badge = Won | Lost | Pending

  /** `BetStatusBadge`: "won" and "lost" have their own badge, any other status is
      shown as pending. */
  function BadgeFor(status: string): (r: Badge)
    ensures r == Won <==> status == "won"
    ensures r == Lost <==> status == "lost"
    ensures r == Pending <==> status != "won" && status != "lost"
  {
    if status == "won" then Won
    else if status == "lost" then Lost
    else Pending
  }

  /** The won bets counted in the header are exactly the rows with a "Won" badge. */
  lemma WonBetsAreWonBadges(bets: seq<Bet>)
    ensures forall b :: b in WonBets(bets) <==> b in bets && BadgeFor(b.status) == Won
  {
  }
}

=== FILE: js_text.dfy ===
/** The JavaScript string and number built-ins the client relies on, restricted to
    ASCII: character classes of regular expressions, `trim`, `startsWith`,
    `includes`, case mapping, `Array.prototype.filter` and `join`, and
    `Number.parseInt` with radix ten. A missing value (`undefined`, `NaN`) is `None`.
 */
module JsText {

  datatype Option<+T> = None | Some(value: T)

  // ---------------------------------------------------------------------------
  // Character classes

  /** The regex class `\d`. */
  predicate IsDigit(c: char) {
    '0' <= c <= '9'
  }

  /** The regex class `\s` (and what `trim` strips), restricted to ASCII. */
  predicate IsSpace(c: char) {
    c == ' ' || c == '\t' || c == '\n' || c == '\r' || c == '\U{000B}' || c == '\U{000C}'
  }

  predicate AllDigits(s: string) {
    forall i :: 0 <= i < |s| ==> IsDigit(s[i])
  }

  predicate AllSpace(s: string) {
    forall i :: 0 <= i < |s| ==> IsSpace(s[i])
  }

  // ---------------------------------------------------------------------------
  // Order-preserving selection (`Array.prototype.filter`)

  /** `a` is obtained from `b` by deleting elements, keeping the order. */
  predicate IsSubsequence<T(==)>(a: seq<T>, b: seq<T>)
    decreases |b|
  {
    if |a| == 0 then true
    else if |b| == 0 then false
    else (a[0] == b[0] && IsSubsequence(a[1..], b[1..])) || IsSubsequence(a, b[1..])
  }

  /** `s.filter(p)`: exactly the elements satisfying `p`, each as often as in `s`, in order. */
  function Filter<T(!new)>(s: seq<T>, p: T -> bool): (r: seq<T>)
    ensures |r| <= |s|
    ensures forall i :: 0 <= i < |r| ==> p(r[i])
    ensures forall x :: x in r <==> x in s && p(x)
    ensures forall x :: multiset(r)[x] == if p(x) then multiset(s)[x] else 0
    ensures IsSubsequence(r, s)
  {
    if |s| == 0 then []
    else
      var rest := Filter(s[1..], p);
      assert s == [s[0]] + s[1..];
      if p(s[0]) then [s[0]] + rest else rest
  }

  /** A filter whose predicate keeps every element returns its input. */
  lemma {:induction false} FilterKeepsAll<T(!new)>(s: seq<T>, p: T -> bool)
    requires forall i :: 0 <= i < |s| ==> p(s[i])
    ensures Filter(s, p) == s
    decreases |s|
  {
    if |s| > 0 {
      var rest := s[1..];
      forall i | 0 <= i < |rest| ensures p(rest[i]) {
        assert rest[i] == s[i + 1];
      }
      FilterKeepsAll(rest, p);
      assert p(s[0]);
      assert Filter(s, p) == [s[0]] + Filter(rest, p);
      assert s == [s[0]] + rest;
    }
  }

  // ---------------------------------------------------------------------------
  // String helpers

  /** `s.startsWith(prefix)`. */
  predicate StartsWith(s: string, prefix: string) {
    |prefix| <= |s| && s[..|prefix|] == prefix
  }

  /** `s.endsWith(suffix)`. */
  predicate EndsWith(s: string, suffix: string) {
    |suffix| <= |s| && s[|s| - |suffix|..] == suffix
  }

  /** `s.includes(sub)`. */
  predicate Contains(s: string, sub: string)
    decreases |s|
  {
    StartsWith(s, sub) || (|s| > 0 && Contains(s[1..], sub))
  }

  /** Text added after a string keeps every occurrence in it. */
  lemma {:induction false} ContainsExtendRight(s: string, sub: string, b: string)
    requires Contains(s, sub)
    ensures Contains(s + b, sub)
    decreases |s|
  {
    if StartsWith(s, sub) {
      assert (s + b)[..|sub|] == s[..|sub|];
    } else {
      ContainsExtendRight(s[1..], sub, b);
      assert (s + b)[1..] == s[1..] + b;
    }
  }

  /** Text added before a string keeps every occurrence in it. */
  lemma {:induction false} ContainsExtendLeft(a: string, s: string, sub: string)
    requires Contains(s, sub)
    ensures Contains(a + s, sub)
    decreases |a|
  {
    if |a| == 0 {
      assert a + s == s;
    } else {
      ContainsExtendLeft(a[1..], s, sub);
      assert (a + s)[1..] == a[1..] + s;
    }
  }

  /** An occurrence survives any surrounding text. */
  lemma ContainsInContext(a: string, s: string, b: string, sub: string)
    requires Contains(s, sub)
    ensures Contains(a + s + b, sub)
  {
    ContainsExtendLeft(a, s, sub);
    ContainsExtendRight(a + s, sub, b);
  }

  /** `s.includes(c)` for a one-character needle is membership. */
  lemma {:induction false} ContainsChar(s: string, c: char)
    ensures Contains(s, [c]) <==> c in s
    decreases |s|
  {
    if |s| > 0 {
      ContainsChar(s[1..], c);
      assert s == [s[0]] + s[1..];
    }
  }

  /** `s.slice(0, n)`. */
  function Take(s: string, n: nat): (r: string)
    ensures |r| == if |s| <= n then |s| else n
    ensures r == s[..|r|]
  {
    if |s| <= n then s else s[..n]
  }

  /** `s.replace(/\D/g, "")`: the digits of `s`, in order. */
  function KeepDigits(s: string): (r: string)
    ensures AllDigits(r)
    ensures |r| <= |s|
    decreases |s|
  {
    if |s| == 0 then []
    else (if IsDigit(s[0]) then [s[0]] else []) + KeepDigits(s[1..])
  }

  lemma {:induction false} DigitsAreKept(s: string)
    requires AllDigits(s)
    ensures KeepDigits(s) == s
    decreases |s|
  {
    if |s| > 0 {
      DigitsAreKept(s[1..]);
      assert s == [s[0]] + s[1..];
    }
  }

  lemma {:induction false} KeepDigitsConcat(a: string, b: string)
    ensures KeepDigits(a + b) == KeepDigits(a) + KeepDigits(b)
    decreases |a|
  {
    if |a| == 0 {
      assert a + b == b;
    } else {
      var first := if IsDigit(a[0]) then [a[0]] else [];
      assert (a + b)[0] == a[0];
      assert (a + b)[1..] == a[1..] + b;
      KeepDigitsConcat(a[1..], b);
      assert KeepDigits(a + b) == first + KeepDigits(a[1..] + b);
      assert KeepDigits(a) == first + KeepDigits(a[1..]);
    }
  }

  /** `s.replace(/\s/g, "")`. */
  function RemoveSpaces(s: string): (r: string)
    ensures forall i :: 0 <= i < |r| ==> !IsSpace(r[i])
    ensures |r| <= |s|
    decreases |s|
  {
    if |s| == 0 then []
    else (if IsSpace(s[0]) then [] else [s[0]]) + RemoveSpaces(s[1..])
  }

  /** On text made of digits and blanks, removing whitespace keeps exactly the digits. */
  lemma {:induction false} RemoveSpacesKeepsDigits(s: string)
    requires forall i :: 0 <= i < |s| ==> IsDigit(s[i]) || s[i] == ' '
    ensures RemoveSpaces(s) == KeepDigits(s)
    decreases |s|
  {
    if |s| > 0 {
      RemoveSpacesKeepsDigits(s[1..]);
    }
  }

  /** `s.trimStart()`. */
  function TrimStart(s: string): (r: string)
    ensures |r| <= |s|
    ensures r == s[|s| - |r|..]
    ensures |r| > 0 ==> !IsSpace(r[0])
    ensures AllSpace(s[..|s| - |r|])
    decreases |s|
  {
    if |s| > 0 && IsSpace(s[0]) then
      var r := TrimStart(s[1..]);
      assert s[..|s| - |r|] == [s[0]] + s[1..][..|s| - 1 - |r|];
      r
    else s
  }

  /** `s.trimEnd()`. */
  function TrimEnd(s: string): (r: string)
    ensures |r| <= |s|
    ensures r == s[..|r|]
    ensures |r| > 0 ==> !IsSpace(r[|r| - 1])
    ensures AllSpace(s[|r|..])
    decreases |s|
  {
    if |s| > 0 && IsSpace(s[|s| - 1]) then
      var r := TrimEnd(s[..|s| - 1]);
      assert s[|r|..] == s[..|s| - 1][|r|..] + [s[|s| - 1]];
      r
    else s
  }

  /** `s.trim()`. */
  function Trim(s: string): (r: string)
    ensures |r| == 0 <==> AllSpace(s)
    ensures |r| > 0 ==> !IsSpace(r[0]) && !IsSpace(r[|r| - 1])
    ensures AllDigits(s) ==> r == s
  {
    TrimBothEnds(s);
    TrimEnd(TrimStart(s))
  }

  lemma TrimBothEnds(s: string)
    ensures |TrimEnd(TrimStart(s))| == 0 <==> AllSpace(s)
    ensures AllDigits(s) ==> TrimEnd(TrimStart(s)) == s
  {
    TrimEmptyIffAllSpace(s);
    if AllDigits(s) {
      TrimLeavesDigits(s);
    }
  }

  lemma TrimEmptyIffAllSpace(s: string)
    ensures |TrimEnd(TrimStart(s))| == 0 <==> AllSpace(s)
  {
    if AllSpace(s) {
      AllSpaceTrimsToEmpty(s);
    }
    if |TrimEnd(TrimStart(s))| == 0 {
      EmptyTrimIsAllSpace(s);
    }
  }

  lemma AllSpaceTrimsToEmpty(s: string)
    requires AllSpace(s)
    ensures |TrimStart(s)| == 0
  {
  }

  lemma {:induction false} EmptyTrimIsAllSpace(s: string)
    requires |TrimEnd(TrimStart(s))| == 0
    ensures AllSpace(s)
  {
    EmptyTrimEndIsAllSpace(TrimStart(s));
    SpaceBeforeTrimStart(s);
  }

  lemma EmptyTrimEndIsAllSpace(t: string)
    requires |TrimEnd(t)| == 0
    ensures AllSpace(t)
  {
    assert t[0..] == t;
  }

  lemma {:induction false} SpaceBeforeTrimStart(s: string)
    requires AllSpace(TrimStart(s))
    ensures AllSpace(s)
    decreases |s|
  {
    if |s| > 0 && IsSpace(s[0]) {
      SpaceBeforeTrimStart(s[1..]);
      assert s == [s[0]] + s[1..];
    }
  }

  lemma TrimLeavesDigits(s: string)
    requires AllDigits(s)
    ensures TrimEnd(TrimStart(s)) == s
  {
    if |s| > 0 {
      DigitIsNotSpace(s[0]);
      DigitIsNotSpace(s[|s| - 1]);
      NoLeadingSpace(s);
      NoTrailingSpace(s);
    }
  }

  lemma DigitIsNotSpace(c: char)
    requires IsDigit(c)
    ensures !IsSpace(c)
  {
  }

  lemma NoLeadingSpace(s: string)
    requires |s| > 0 && !IsSpace(s[0])
    ensures TrimStart(s) == s
  {
  }

  lemma NoTrailingSpace(s: string)
    requires |s| > 0 && !IsSpace(s[|s| - 1])
    ensures TrimEnd(s) == s
  {
  }

  /** `!s.trim()` in a condition: the string is empty or all whitespace. */
  predicate IsBlank(s: string) {
    |Trim(s)| == 0
  }

  function LowerChar(c: char): char {
    if 'A' <= c <= 'Z' then (c as int + 32) as char else c
  }

  function UpperChar(c: char): char {
    if 'a' <= c <= 'z' then (c as int - 32) as char else c
  }

  /** `s.toLowerCase()`. */
  function ToLower(s: string): (r: string)
    ensures |r| == |s|
    ensures forall i :: 0 <= i < |s| ==> r[i] == LowerChar(s[i])
  {
    seq(|s|, i requires 0 <= i < |s| => LowerChar(s[i]))
  }

  /** `s.toUpperCase()`. */
  function ToUpper(s: string): (r: string)
    ensures |r| == |s|
    ensures forall i :: 0 <= i < |s| ==> r[i] == UpperChar(s[i])
  {
    seq(|s|, i requires 0 <= i < |s| => UpperChar(s[i]))
  }

  /** Lower-casing both sides keeps every occurrence: a substring test on lower-cased
      text also finds the text in any mix of letter cases. */
  lemma {:induction false} ContainsLowered(s: string, sub: string)
    requires Contains(s, sub)
    ensures Contains(ToLower(s), ToLower(sub))
    decreases |s|
  {
    if StartsWith(s, sub) {
      assert ToLower(s)[..|sub|] == ToLower(sub) by {
        forall i | 0 <= i < |sub| ensures ToLower(s)[i] == ToLower(sub)[i] {
          assert s[i] == s[..|sub|][i];
        }
      }
    } else {
      ContainsLowered(s[1..], sub);
      assert ToLower(s)[1..] == ToLower(s[1..]);
    }
  }

  /** Index of the first `c` in `s`, or `|s|` when there is none. */
  function IndexOf(s: string, c: char): (r: nat)
    ensures r <= |s|
    ensures r < |s| ==> s[r] == c
    ensures forall i :: 0 <= i < r ==> s[i] != c
    decreases |s|
  {
    if |s| == 0 then 0
    else if s[0] == c then 0
    else 1 + IndexOf(s[1..], c)
  }

  /** `parts.join(sep)`. */
  function Join(parts: seq<string>, sep: string): (r: string)
    ensures |parts| > 0 ==> StartsWith(r, parts[0])
    ensures |parts| > 0 ==> EndsWith(r, parts[|parts| - 1])
    decreases |parts|
  {
    if |parts| == 0 then ""
    else if |parts| == 1 then parts[0]
    else
      var tail := Join(parts[1..], sep);
      var r := parts[0] + sep + tail;
      assert r[|r| - |tail|..] == tail;
      assert r[..|parts[0]|] == parts[0];
      r
  }

  /** Where part `k` starts in `Join(parts, sep)`: the lengths of the parts before it,
      each followed by one separator. */
  function Offset(parts: seq<string>, sep: string, k: nat): nat
    requires k <= |parts|
    decreases k
  {
    if k == 0 then 0 else |parts[0]| + |sep| + Offset(parts[1..], sep, k - 1)
  }

  /** Each offset is the previous one moved past one part and one separator. */
  lemma {:induction false} OffsetStep(parts: seq<string>, sep: string, k: nat)
    requires k < |parts|
    ensures Offset(parts, sep, k + 1) == Offset(parts, sep, k) + |parts[k]| + |sep|
    decreases k
  {
    if k > 0 {
      OffsetStep(parts[1..], sep, k - 1);
    }
  }

  /** Part `k` sits at its offset in the joined text. */
  lemma {:induction false} JoinPartAt(parts: seq<string>, sep: string, k: nat)
    requires k < |parts|
    ensures Offset(parts, sep, k) + |parts[k]| <= |Join(parts, sep)|
    ensures Join(parts, sep)[Offset(parts, sep, k)..Offset(parts, sep, k) + |parts[k]|] == parts[k]
    decreases k, 1
  {
    if k == 0 {
      FirstPart(parts, sep);
    } else {
      LaterPart(parts, sep, k);
    }
  }

  /** One step of `Join`: the first part, a separator, then the join of the rest. */
  lemma JoinCons(parts: seq<string>, sep: string)
    requires 1 < |parts|
    ensures Join(parts, sep) == parts[0] + sep + Join(parts[1..], sep)
  {
  }

  lemma FirstPart(parts: seq<string>, sep: string)
    requires 0 < |parts|
    ensures |parts[0]| <= |Join(parts, sep)|
    ensures Join(parts, sep)[0..|parts[0]|] == parts[0]
  {
  }

  lemma {:induction false} LaterPart(parts: seq<string>, sep: string, k: nat)
    requires 0 < k < |parts|
    ensures Offset(parts, sep, k) + |parts[k]| <= |Join(parts, sep)|
    ensures Join(parts, sep)[Offset(parts, sep, k)..Offset(parts, sep, k) + |parts[k]|] == parts[k]
    decreases k, 0
  {
    var head := parts[0] + sep;
    var rest := parts[1..];
    var tail := Join(rest, sep);
    var o := Offset(rest, sep, k - 1);
    assert Offset(parts, sep, k) == |head| + o;
    assert rest[k - 1] == parts[k];
    JoinPartAt(rest, sep, k - 1);
    JoinCons(parts, sep);
    SliceAfterPrefix(head, tail, o, o + |parts[k]|);
  }

  /** Slicing past a known prefix slices the rest. */
  lemma SliceAfterPrefix(x: string, y: string, i: nat, j: nat)
    requires i <= j <= |y|
    ensures (x + y)[|x| + i..|x| + j] == y[i..j]
  {
  }

  /** One separator follows every part but the last. */
  lemma {:induction false} JoinSeparatorAfter(parts: seq<string>, sep: string, k: nat)
    requires k + 1 < |parts|
    ensures Offset(parts, sep, k + 1) == Offset(parts, sep, k) + |parts[k]| + |sep|
    ensures Offset(parts, sep, k + 1) <= |Join(parts, sep)|
    ensures Join(parts, sep)[Offset(parts, sep, k) + |parts[k]|..Offset(parts, sep, k + 1)] == sep
    decreases k, 1
  {
    OffsetStep(parts, sep, k);
    if k == 0 {
      FirstSeparator(parts, sep);
    } else {
      LaterSeparator(parts, sep, k);
    }
  }

  lemma FirstSeparator(parts: seq<string>, sep: string)
    requires 1 < |parts|
    ensures |parts[0]| + |sep| <= |Join(parts, sep)|
    ensures Join(parts, sep)[|parts[0]|..|parts[0]| + |sep|] == sep
  {
    var tail := Join(parts[1..], sep);
    JoinCons(parts, sep);
    assert (parts[0] + sep + tail)[|parts[0]|..|parts[0]| + |sep|] == (parts[0] + sep)[|parts[0]|..];
  }

  lemma {:induction false} LaterSeparator(parts: seq<string>, sep: string, k: nat)
    requires 0 < k && k + 1 < |parts|
    ensures Offset(parts, sep, k + 1) == Offset(parts, sep, k) + |parts[k]| + |sep|
    ensures Offset(parts, sep, k + 1) <= |Join(parts, sep)|
    ensures Join(parts, sep)[Offset(parts, sep, k) + |parts[k]|..Offset(parts, sep, k + 1)] == sep
    decreases k, 0
  {
    var head := parts[0] + sep;
    var rest := parts[1..];
    var tail := Join(rest, sep);
    var o := Offset(rest, sep, k - 1);
    OffsetStep(parts, sep, k);
    JoinCons(parts, sep);
    assert rest[k - 1] == parts[k];
    assert Offset(parts, sep, k) == |head| + o;
    assert Offset(parts, sep, k + 1) == |head| + Offset(rest, sep, k);
    JoinSeparatorAfter(rest, sep, k - 1);
    SliceAfterPrefix(head, tail, o + |parts[k]|, o + |parts[k]| + |sep|);
  }

  /** The joined text ends with the last part. */
  lemma {:induction false} JoinLength(parts: seq<string>, sep: string)
    requires |parts| > 0
    ensures |Join(parts, sep)| == Offset(parts, sep, |parts| - 1) + |parts[|parts| - 1]|
    decreases |parts|
  {
    if |parts| > 1 {
      JoinLength(parts[1..], sep);
    }
  }

  /** Where part `k` ends in `Join(parts, sep)`. */
  function PartEnd(parts: seq<string>, sep: string, k: nat): nat
    requires k < |parts|
  {
    Offset(parts, sep, k) + |parts[k]|
  }

  /** Part `k` of `parts` sits at its offset in `r`. */
  predicate PartAt(r: string, parts: seq<string>, sep: string, k: nat)
    requires k < |parts|
  {
    PartEnd(parts, sep, k) <= |r| && r[Offset(parts, sep, k)..PartEnd(parts, sep, k)] == parts[k]
  }

  /** A separator follows part `k` of `parts` in `r`. */
  predicate SepAfter(r: string, parts: seq<string>, sep: string, k: nat)
    requires k < |parts|
  {
    PartEnd(parts, sep, k) + |sep| <= |r| && r[PartEnd(parts, sep, k)..PartEnd(parts, sep, k) + |sep|] == sep
  }

  /** `r` is `parts` laid end to end with one `sep` between neighbours: each part at
      its offset, a separator after every part but the last, and nothing after the
      last part. */
  predicate JoinedInOrder(r: string, parts: seq<string>, sep: string) {
    && |parts| > 0
    && |r| == PartEnd(parts, sep, |parts| - 1)
    && (forall k :: 0 <= k < |parts| ==> PartAt(r, parts, sep, k))
    && (forall k :: 0 <= k < |parts| - 1 ==> SepAfter(r, parts, sep, k))
  }

  /** `Join` lays its parts out in order. */
  lemma JoinLayout(parts: seq<string>, sep: string)
    requires |parts| > 0
    ensures JoinedInOrder(Join(parts, sep), parts, sep)
  {
    JoinLength(parts, sep);
    forall k | 0 <= k < |parts|
      ensures PartAt(Join(parts, sep), parts, sep, k)
    {
      JoinPartAt(parts, sep, k);
    }
    forall k | 0 <= k < |parts| - 1
      ensures SepAfter(Join(parts, sep), parts, sep, k)
    {
      JoinSeparatorAfter(parts, sep, k);
    }
  }

  /** Offsets in the parts after the first are shifted by the first part and its
      separator. */
  lemma OffsetOfRest(parts: seq<string>, sep: string, k: nat)
    requires 0 < k < |parts|
    ensures Offset(parts, sep, k) == |parts[0]| + |sep| + Offset(parts[1..], sep, k - 1)
    ensures PartEnd(parts, sep, k) == |parts[0]| + |sep| + PartEnd(parts[1..], sep, k - 1)
  {
  }

  lemma {:induction false} PartAtRest(r: string, parts: seq<string>, sep: string, k: nat)
    requires 0 < k < |parts| && |parts[0]| + |sep| <= |r|
    requires PartAt(r, parts, sep, k)
    ensures PartAt(r[|parts[0]| + |sep|..], parts[1..], sep, k - 1)
  {
    var shift := |parts[0]| + |sep|;
    OffsetOfRest(parts, sep, k);
    var o := Offset(parts[1..], sep, k - 1);
    var e := PartEnd(parts[1..], sep, k - 1);
    assert r[shift..][o..e] == r[shift + o..shift + e];
  }

  lemma {:induction false} SepAfterRest(r: string, parts: seq<string>, sep: string, k: nat)
    requires 0 < k < |parts| && |parts[0]| + |sep| <= |r|
    requires SepAfter(r, parts, sep, k)
    ensures SepAfter(r[|parts[0]| + |sep|..], parts[1..], sep, k - 1)
  {
    var shift := |parts[0]| + |sep|;
    OffsetOfRest(parts, sep, k);
    var e := PartEnd(parts[1..], sep, k - 1);
    assert r[shift..][e..e + |sep|] == r[shift + e..shift + e + |sep|];
  }

  /** Dropping the first part and its separator leaves the rest laid out in order. */
  lemma {:induction false} JoinedInOrderRest(r: string, parts: seq<string>, sep: string)
    requires JoinedInOrder(r, parts, sep) && |parts| > 1
    ensures |parts[0]| + |sep| <= |r|
    ensures r[..|parts[0]|] == parts[0]
    ensures r[|parts[0]|..|parts[0]| + |sep|] == sep
    ensures JoinedInOrder(r[|parts[0]| + |sep|..], parts[1..], sep)
  {
    assert PartAt(r, parts, sep, 0) && SepAfter(r, parts, sep, 0);
    OffsetOfRest(parts, sep, |parts| - 1);
    var rest, tailParts := r[|parts[0]| + |sep|..], parts[1..];
    forall k | 0 <= k < |tailParts|
      ensures PartAt(rest, tailParts, sep, k)
    {
      assert PartAt(r, parts, sep, k + 1);
      PartAtRest(r, parts, sep, k + 1);
    }
    forall k | 0 <= k < |tailParts| - 1
      ensures SepAfter(rest, tailParts, sep, k)
    {
      assert SepAfter(r, parts, sep, k + 1);
      SepAfterRest(r, parts, sep, k + 1);
    }
  }

  lemma SplitInThree(r: string, i: nat, j: nat)
    requires i <= j <= |r|
    ensures r == r[..i] + r[i..j] + r[j..]
  {
  }

  /** The layout determines the text: whatever is laid out in order is the join. */
  lemma {:induction false} JoinedInOrderIsJoin(r: string, parts: seq<string>, sep: string)
    requires JoinedInOrder(r, parts, sep)
    ensures r == Join(parts, sep)
    decreases |parts|
  {
    if |parts| == 1 {
      assert PartAt(r, parts, sep, 0);
      assert r == r[0..|parts[0]|];
    } else {
      var shift := |parts[0]| + |sep|;
      JoinedInOrderRest(r, parts, sep);
      JoinedInOrderIsJoin(r[shift..], parts[1..], sep);
      SplitInThree(r, |parts[0]|, shift);
      JoinCons(parts, sep);
    }
  }

  // ---------------------------------------------------------------------------
  // Decimal numbers (`Number.parseInt` and `String`)

  /** Longest prefix of `s` made of digits. */
  function DigitPrefix(s: string): (r: string)
    ensures AllDigits(r)
    ensures |r| <= |s|
    ensures r == s[..|r|]
    ensures |r| < |s| ==> !IsDigit(s[|r|])
    decreases |s|
  {
    if |s| > 0 && IsDigit(s[0]) then [s[0]] + DigitPrefix(s[1..]) else []
  }

  /** Value of a string of decimal digits, most significant first. */
  function DigitsValue(d: string): nat
    requires AllDigits(d)
    decreases |d|
  {
    if |d| == 0 then 0
    else DigitsValue(d[..|d| - 1]) * 10 + (d[|d| - 1] as int - '0' as int)
  }

  /** `Number.parseInt(s)` with radix ten: leading whitespace, an optional sign,
      then the longest run of digits; no digits at all reads as `NaN`. */
  function ParseInt(s: string): Option<int> {
    var t := TrimStart(s);
    if |t| > 0 && (t[0] == '-' || t[0] == '+') then
      var d := DigitPrefix(t[1..]);
      if |d| == 0 then None
      else if t[0] == '-' then Some(0 - DigitsValue(d) as int)
      else Some(DigitsValue(d))
    else
      var d := DigitPrefix(t);
      if |d| == 0 then None else Some(DigitsValue(d))
  }

  function DigitChar(k: nat): (c: char)
    requires k < 10
    ensures IsDigit(c) && c as int - '0' as int == k
  {
    ('0' as int + k) as char
  }

  /** `String(n)` for a natural number. */
  function DecimalString(n: nat): (r: string)
    ensures |r| > 0 && AllDigits(r)
    ensures DigitsValue(r) == n
    decreases n
  {
    if n < 10 then [DigitChar(n)]
    else
      var r := DecimalString(n / 10) + [DigitChar(n % 10)];
      assert r[..|r| - 1] == DecimalString(n / 10);
      r
  }

  /** `Number.parseInt(String(n)) === n`: the amount fields, which keep only digits,
      read back the number typed. */
  lemma ParseIntDecimal(n: nat)
    ensures ParseInt(DecimalString(n)) == Some(n)
  {
    var s := DecimalString(n);
    assert !IsSpace(s[0]);
    assert TrimStart(s) == s;
    assert DigitPrefix(s) == s;
  }
}

=== FILE: ledger.dfy ===
/** The client-local wallet of `useLocalWallet.ts`: a balance and two newest-first
    lists kept under three independent storage keys. Each key is modelled as
    absent, well-formed or unreadable; the clock reading `now` is a parameter.
 */
module Ledger {
  import opened JsText

  /** Balance seeded into an empty store. */
  const InitialBalance: int := 10000

  datatype TxKind = Credit | Debit

  datatype Transaction = Transaction(id: int, kind: TxKind, amount: int, description: string, timestamp: int)

  /** The only status this client ever writes. */
  datatype WithdrawalStatus = Approved

  datatype Withdrawal = Withdrawal(id: int, amount: int, payMethod: string, details: string,
                                   status: WithdrawalStatus, timestamp: int)

  /** The balance key: missing, a number, or text that `Number` reads as `NaN`. */
  datatype StoredNumber = Absent | Number(value: int) | NotANumber

  /** A list key: missing (or empty text), unparseable JSON, or a parsed list. */
  datatype StoredList<T> = Missing | Corrupt | Parsed(items: seq<T>)

  datatype Store = Store(balance: StoredNumber,
                         withdrawals: StoredList<Withdrawal>,
                         transactions: StoredList<Transaction>)

  /** A browser that has never opened the wallet. */
  const EmptyStore: Store := Store(Absent, Missing, Missing)

  // ---------------------------------------------------------------------------
  // Reads

  /** The value `getBalance` returns for a store. */
  function Balance(s: Store): int {
    match s.balance
    case Absent => InitialBalance
    case Number(v) => v
    case NotANumber => InitialBalance
  }

  /** `getWithdrawals` / `getTransactions`: an unreadable record reads as empty. */
  function ReadList<T>(l: StoredList<T>): seq<T> {
    match l
    case Parsed(items) => items
    case _ => []
  }

  function Withdrawals(s: Store): seq<Withdrawal> {
    ReadList(s.withdrawals)
  }

  function Transactions(s: Store): seq<Transaction> {
    ReadList(s.transactions)
  }

  /** The store after `getBalance` ran: an absent balance has been written as the seed. */
  function Seeded(s: Store): Store {
    if s.balance.Absent? then s.(balance := Number(InitialBalance)) else s
  }

  datatype BalanceRead = BalanceRead(value: int, store: Store)

  /** `getBalance`: the balance, plus the store with the seed persisted when the key
      was absent. An unparseable value reads as the seed and is left as it is. */
  function GetBalance(s: Store): (r: BalanceRead)
    ensures s.balance.Absent? ==> r.value == InitialBalance && r.store.balance == Number(InitialBalance)
    ensures s.balance.NotANumber? ==> r.value == InitialBalance && r.store == s
    ensures s.balance.Number? ==> r.value == s.balance.value && r.store == s
    ensures r.store.withdrawals == s.withdrawals && r.store.transactions == s.transactions
    ensures !r.store.balance.Absent?
  {
    match s.balance
    case Absent => BalanceRead(InitialBalance, s.(balance := Number(InitialBalance)))
    case Number(v) => BalanceRead(v, s)
    case NotANumber => BalanceRead(InitialBalance, s)
  }

  /** Seeding happens once: reading again sees the stored value and writes nothing,
      and the seed write never changes what a read returns. */
  lemma SeedingHappensOnce(s: Store)
    ensures GetBalance(GetBalance(s).store) == GetBalance(s)
    ensures Balance(GetBalance(s).store) == Balance(s) == GetBalance(s).value
  {
  }

  /** Each list record is read on its own: a missing or unparseable record reads as
      the empty list whatever the other record holds, and a parsed one reads as
      stored. */
  lemma UnreadableListsReadEmpty(s: Store)
    ensures !s.withdrawals.Parsed? ==> Withdrawals(s) == []
    ensures !s.transactions.Parsed? ==> Transactions(s) == []
    ensures s.withdrawals.Parsed? ==> Withdrawals(s) == s.withdrawals.items
    ensures s.transactions.Parsed? ==> Transactions(s) == s.transactions.items
  {
  }

  // ---------------------------------------------------------------------------
  // Operations

  datatype WalletError = InsufficientBalance

  function ErrorMessage(e: WalletError): string {
    match e
    case InsufficientBalance => "Insufficient balance"
  }

  /** The store after an operation, and the error it threw, if any. */
  datatype Outcome = Outcome(store: Store, error: Option<WalletError>)

  /** The three reads a screen performs. */
  datatype View = View(balance: int, withdrawals: seq<Withdrawal>, transactions: seq<Transaction>)

  function ViewOf(s: Store): View {
    View(Balance(s), Withdrawals(s), Transactions(s))
  }

  /** `withdraw(amount, method, details)`. Refuses an amount above the current balance
      with no write beyond the balance seeding; otherwise lowers the balance and puts
      one withdrawal and one debit at the front of their lists. */
  function Withdraw(s: Store, amount: int, payMethod: string, details: string, now: int): (r: Outcome)
    ensures r.error.Some? <==> amount > Balance(s)
    ensures r.error.Some? ==> r.error == Some(InsufficientBalance) && r.store == Seeded(s) && ViewOf(r.store) == ViewOf(s)
    ensures r.error.None? ==>
      && Balance(r.store) == Balance(s) - amount
      && Withdrawals(r.store) == [Withdrawal(now, amount, payMethod, details, Approved, now)] + Withdrawals(s)
      && Transactions(r.store) == [Transaction(now + 1, Debit, amount, "Withdrawal - " + payMethod, now)] + Transactions(s)
  {
    var current := GetBalance(s);
    if amount > current.value then
      Outcome(current.store, Some(InsufficientBalance))
    else
      var wd := Withdrawal(now, amount, payMethod, details, Approved, now);
      var tx := Transaction(now + 1, Debit, amount, "Withdrawal - " + payMethod, now);
      var afterBalance := current.store.(balance := Number(current.value - amount));
      var afterWithdrawals := afterBalance.(withdrawals := Parsed([wd] + Withdrawals(afterBalance)));
      Outcome(afterWithdrawals.(transactions := Parsed([tx] + Transactions(afterWithdrawals))), None)
  }

  /** `addMoney(amount)`. Raises the balance and puts one credit at the front of the
      transactions; the withdrawals record is not touched. Any amount is accepted. */
  function AddMoney(s: Store, amount: int, now: int): (r: Store)
    ensures Balance(r) == Balance(s) + amount
    ensures Transactions(r) == [Transaction(now, Credit, amount, "Money Added", now)] + Transactions(s)
    ensures r.withdrawals == s.withdrawals
  {
    var current := GetBalance(s);
    var afterBalance := current.store.(balance := Number(current.value + amount));
    var tx := Transaction(now, Credit, amount, "Money Added", now);
    afterBalance.(transactions := Parsed([tx] + Transactions(afterBalance)))
  }

  // ---------------------------------------------------------------------------
  // Sequences of operations

  datatype Op =
    | AddMoneyOp(amount: int, now: int)
    | WithdrawOp(amount: int, payMethod: string, details: string, now: int)

  function Apply(s: Store, op: Op): Store {
    match op
    case AddMoneyOp(amount, now) => AddMoney(s, amount, now)
    case WithdrawOp(amount, payMethod, details, now) => Withdraw(s, amount, payMethod, details, now).store
  }

  function Run(s: Store, ops: seq<Op>): Store
    decreases |ops|
  {
    if |ops| == 0 then s else Run(Apply(s, ops[0]), ops[1..])
  }

  function Credits(txs: seq<Transaction>): int
    decreases |txs|
  {
    if |txs| == 0 then 0
    else (if txs[0].kind == Credit then txs[0].amount else 0) + Credits(txs[1..])
  }

  function Debits(txs: seq<Transaction>): int
    decreases |txs|
  {
    if |txs| == 0 then 0
    else (if txs[0].kind == Debit then txs[0].amount else 0) + Debits(txs[1..])
  }

  function Withdrawn(wds: seq<Withdrawal>): int
    decreases |wds|
  {
    if |wds| == 0 then 0 else wds[0].amount + Withdrawn(wds[1..])
  }

  /** The ledger invariant: the stored balance is the seed plus every credit minus
      every debit, and the debits are exactly the withdrawals. */
  predicate Consistent(s: Store) {
    && Balance(s) == InitialBalance + Credits(Transactions(s)) - Debits(Transactions(s))
    && Debits(Transactions(s)) == Withdrawn(Withdrawals(s))
  }

  lemma EmptyStoreConsistent()
    ensures Consistent(EmptyStore)
  {
  }

  lemma PrependTransaction(tx: Transaction, txs: seq<Transaction>)
    ensures Credits([tx] + txs) == (if tx.kind == Credit then tx.amount else 0) + Credits(txs)
    ensures Debits([tx] + txs) == (if tx.kind == Debit then tx.amount else 0) + Debits(txs)
  {
    assert ([tx] + txs)[1..] == txs;
  }

  lemma PrependWithdrawal(wd: Withdrawal, wds: seq<Withdrawal>)
    ensures Withdrawn([wd] + wds) == wd.amount + Withdrawn(wds)
  {
    assert ([wd] + wds)[1..] == wds;
  }

  /** Every operation, successful or refused, keeps the ledger invariant. */
  lemma ApplyKeepsConsistent(s: Store, op: Op)
    requires Consistent(s)
    ensures Consistent(Apply(s, op))
  {
    match op
    case AddMoneyOp(amount, now) =>
      PrependTransaction(Transaction(now, Credit, amount, "Money Added", now), Transactions(s));
    case WithdrawOp(amount, payMethod, details, now) =>
      var r := Withdraw(s, amount, payMethod, details, now);
      if r.error.None? {
        PrependTransaction(Transaction(now + 1, Debit, amount, "Withdrawal - " + payMethod, now), Transactions(s));
        PrependWithdrawal(Withdrawal(now, amount, payMethod, details, Approved, now), Withdrawals(s));
      }
  }

  /** Balance = seed + credits - debits, and debits = withdrawals, after any
      sequence of operations on a consistent store. */
  lemma {:induction false} RunKeepsConsistent(s: Store, ops: seq<Op>)
    requires Consistent(s)
    ensures Consistent(Run(s, ops))
    decreases |ops|
  {
    if |ops| > 0 {
      ApplyKeepsConsistent(s, ops[0]);
      RunKeepsConsistent(Apply(s, ops[0]), ops[1..]);
    }
  }

  /** The ledger invariant from a fresh browser, for every history of operations. */
  lemma LedgerInvariantFromFreshStore(ops: seq<Op>)
    ensures Balance(Run(EmptyStore, ops)) ==
            InitialBalance + Credits(Transactions(Run(EmptyStore, ops))) - Debits(Transactions(Run(EmptyStore, ops)))
    ensures Debits(Transactions(Run(EmptyStore, ops))) == Withdrawn(Withdrawals(Run(EmptyStore, ops)))
  {
    EmptyStoreConsistent();
    RunKeepsConsistent(EmptyStore, ops);
  }

  predicate AddsOnlyNonNegative(ops: seq<Op>) {
    forall i :: 0 <= i < |ops| && ops[i].AddMoneyOp? ==> ops[i].amount >= 0
  }

  /** A non-negative balance stays non-negative while only non-negative amounts are
      added: a withdrawal never takes more than the balance. */
  lemma {:induction false} BalanceStaysNonNegative(s: Store, ops: seq<Op>)
    requires Balance(s) >= 0
    requires AddsOnlyNonNegative(ops)
    ensures Balance(Run(s, ops)) >= 0
    decreases |ops|
  {
    if |ops| > 0 {
      assert AddsOnlyNonNegative(ops[1..]) by {
        forall i | 0 <= i < |ops[1..]| && ops[1..][i].AddMoneyOp?
          ensures ops[1..][i].amount >= 0
        {
          assert ops[1..][i] == ops[i + 1];
        }
      }
      BalanceStaysNonNegative(Apply(s, ops[0]), ops[1..]);
    }
  }

  /** `before` is what `after` becomes once its first elements are dropped. */
  predicate IsSuffix<T(==)>(before: seq<T>, after: seq<T>) {
    |before| <= |after| && after[|after| - |before|..] == before
  }

  lemma SuffixTransitive<T>(a: seq<T>, b: seq<T>, c: seq<T>)
    requires IsSuffix(a, b) && IsSuffix(b, c)
    ensures IsSuffix(a, c)
  {
    assert c[|c| - |a|..] == c[|c| - |b|..][|b| - |a|..];
  }

  /** One operation either leaves a list as it reads or puts one record in front of it. */
  lemma ApplyOnlyPrepends(s: Store, op: Op)
    ensures |Transactions(Apply(s, op))| <= |Transactions(s)| + 1
    ensures IsSuffix(Transactions(s), Transactions(Apply(s, op)))
    ensures |Withdrawals(Apply(s, op))| <= |Withdrawals(s)| + 1
    ensures IsSuffix(Withdrawals(s), Withdrawals(Apply(s, op)))
  {
    var t := Transactions(Apply(s, op));
    var w := Withdrawals(Apply(s, op));
    assert t == Transactions(s) || t[1..] == Transactions(s);
    assert w == Withdrawals(s) || w[1..] == Withdrawals(s);
  }

  /** Lists only grow at the front: whatever was read before a run of operations is
      still read, unchanged, at the end of the list afterwards. */
  lemma {:induction false} RunOnlyPrepends(s: Store, ops: seq<Op>)
    ensures IsSuffix(Transactions(s), Transactions(Run(s, ops)))
    ensures IsSuffix(Withdrawals(s), Withdrawals(Run(s, ops)))
    decreases |ops|
  {
    if |ops| > 0 {
      var next := Apply(s, ops[0]);
      ApplyOnlyPrepends(s, ops[0]);
      RunOnlyPrepends(next, ops[1..]);
      SuffixTransitive(Transactions(s), Transactions(next), Transactions(Run(next, ops[1..])));
      SuffixTransitive(Withdrawals(s), Withdrawals(next), Withdrawals(Run(next, ops[1..])));
    }
  }
}

=== FILE: market.dfy ===
/** The home screen's market rules (`HomePage.tsx`): whether a game is open at a
    given minute of the day, which games the list shows, and the ticker text.
    Times are minutes since midnight; turning the backend's timestamps and the
    shifted clock into minutes is outside this model.
 */
module Market {
  import opened JsText

  const MinutesPerDay: int := 24 * 60

  type Minute = m: int | 0 <= m < 1440

  datatype Game = Game(id: string, name: string, session: string, openMin: Minute, closeMin: Minute)

  /** `isGameOpen`: a close time earlier than the open time means the game closes
      after midnight. Open from the opening minute, closed from the closing minute. */
  function IsGameOpen(now: Minute, game: Game): (r: bool)
    ensures game.openMin <= game.closeMin ==> (r <==> game.openMin <= now < game.closeMin)
    ensures game.closeMin < game.openMin ==> (r <==> now >= game.openMin || now < game.closeMin)
  {
    var openMin := game.openMin;
    var closeMin := game.closeMin;
    var effectiveCloseMin := if closeMin < openMin then closeMin + MinutesPerDay else closeMin;
    var effectiveNowMin := if closeMin < openMin && now < openMin then now + MinutesPerDay else now;
    effectiveNowMin >= openMin && effectiveNowMin < effectiveCloseMin
  }

  /** One rule for both kinds of window: a game is open exactly when fewer minutes
      have passed since opening (going round the clock) than the window lasts. */
  lemma OpenIffWithinWindow(now: Minute, game: Game)
    ensures IsGameOpen(now, game) <==>
            (now - game.openMin) % MinutesPerDay < (game.closeMin - game.openMin) % MinutesPerDay
  {
    var o, c := game.openMin, game.closeMin;
    var elapsed := if now >= o then now - o else now - o + MinutesPerDay;
    var length := if c >= o then c - o else c - o + MinutesPerDay;
    ModOfShifted(now - o, elapsed);
    ModOfShifted(c - o, length);
  }

  /** `x % 1440` for a value within one day of the range [0, 1440). */
  lemma ModOfShifted(x: int, y: int)
    requires 0 <= y < MinutesPerDay
    requires y == x || y == x + MinutesPerDay
    ensures x % MinutesPerDay == y
  {
  }

  /** The opening minute is open unless the window is empty, the closing minute is
      closed, and a game that opens and closes at the same minute is never open. */
  lemma WindowBoundaries(game: Game)
    ensures IsGameOpen(game.openMin, game) <==> game.openMin != game.closeMin
    ensures !IsGameOpen(game.closeMin, game)
    ensures game.openMin == game.closeMin ==> forall now: Minute :: !IsGameOpen(now, game)
  {
  }

  // ---------------------------------------------------------------------------
  // The game list

  /** The backend's games when it returned a non-empty list, else the built-in seed list. */
  function GamesShown(live: Option<seq<Game>>, seed: seq<Game>): (r: seq<Game>)
    ensures live.Some? && |live.value| > 0 ==> r == live.value
    ensures live.None? || live.value == [] ==> r == seed
  {
    if live.Some? && |live.value| > 0 then live.value else seed
  }

  /** With a non-empty seed list the home screen never shows an empty market list, and
      feeding the list shown back in as the live list shows it again. */
  lemma GamesShownNeverEmpty(live: Option<seq<Game>>, seed: seq<Game>)
    requires |seed| > 0
    ensures |GamesShown(live, seed)| > 0
    ensures GamesShown(Some(GamesShown(live, seed)), seed) == GamesShown(live, seed)
  {
  }

  datatype SessionTab = All | Morning | Day | Night

  function TabLabel(tab: SessionTab): string {
    match tab
    case All => "All"
    case Morning => "Morning"
    case Day => "Day"
    case Night => "Night"
  }

  predicate MatchesTab(g: Game, tab: SessionTab) {
    TabLabel(tab) == "All" || g.session == TabLabel(tab)
  }

  predicate MatchesSearch(g: Game, query: string) {
    Contains(ToLower(g.name), ToLower(query))
  }

  predicate Listed(tab: SessionTab, query: string, g: Game) {
    MatchesTab(g, tab) && MatchesSearch(g, query)
  }

  /** `filteredGames`: the games of the selected session whose name contains the
      query, ignoring case, in their original order. */
  function FilterGames(games: seq<Game>, tab: SessionTab, query: string): (r: seq<Game>)
    ensures forall g :: g in r <==> g in games && (tab == All || g.session == TabLabel(tab)) && MatchesSearch(g, query)
    ensures IsSubsequence(r, games)
  {
    Filter(games, g => Listed(tab, query, g))
  }

  lemma {:induction false} ContainsEmpty(s: string)
    ensures Contains(s, "")
  {
    assert StartsWith(s, "");
  }

  /** The initial screen (tab "All", empty search box) lists every game, in order. */
  lemma InitialScreenListsEverything(games: seq<Game>)
    ensures FilterGames(games, All, "") == games
  {
    forall i | 0 <= i < |games|
      ensures Listed(All, "", games[i])
    {
      ContainsEmpty(ToLower(games[i].name));
    }
    FilterKeepsAll(games, g => Listed(All, "", g));
  }

  // ---------------------------------------------------------------------------
  // The ticker

  const ClosedTicker: string := "\U{2726} All Markets Closed \U{2014} Next session opening soon"

  const TickerSeparator: string := " \U{00A0}\U{00A0} "

  function TickerLabel(g: Game): string {
    "\U{2726} " + g.name + ": OPEN"
  }

  function OpenGames(now: Minute, games: seq<Game>): seq<Game> {
    Filter(games, g => IsGameOpen(now, g))
  }

  function Labels(games: seq<Game>): (r: seq<string>)
    ensures |r| == |games|
    ensures forall i :: 0 <= i < |games| ==> r[i] == TickerLabel(games[i])
  {
    seq(|games|, i requires 0 <= i < |games| => TickerLabel(games[i]))
  }

  /** `tickerText`: the fixed closed text exactly when no game is open; otherwise
      the open games' labels, starting with the first open game and ending with the
      last; `TickerListsOpenLabelsInOrder` pins the rest. */
  function TickerText(now: Minute, games: seq<Game>): (r: string)
    ensures r == ClosedTicker <==> forall g :: g in games ==> !IsGameOpen(now, g)
    ensures r != ClosedTicker ==>
      var open := OpenGames(now, games);
      |open| > 0 && StartsWith(r, TickerLabel(open[0])) && EndsWith(r, TickerLabel(open[|open| - 1]))
  {
    var open := OpenGames(now, games);
    NoOpenGameIffNoneOpen(now, games);
    if |open| == 0 then
      ClosedTicker
    else
      JoinedLabelsAreNotClosedText(Labels(open), Join(Labels(open), TickerSeparator), open[|open| - 1]);
      Join(Labels(open), TickerSeparator)
  }

  /** While some game is open the ticker is every open game's label in list order,
      one separator between neighbours and nothing else; by `JoinedInOrderIsJoin`
      that layout determines the text. */
  lemma TickerListsOpenLabelsInOrder(now: Minute, games: seq<Game>)
    ensures TickerText(now, games) != ClosedTicker ==>
      JoinedInOrder(TickerText(now, games), Labels(OpenGames(now, games)), TickerSeparator)
  {
    var labels := Labels(OpenGames(now, games));
    if |labels| > 0 {
      JoinLayout(labels, TickerSeparator);
    }
  }

  lemma {:induction false} NoOpenGameIffNoneOpen(now: Minute, games: seq<Game>)
    ensures |OpenGames(now, games)| == 0 <==> forall g :: g in games ==> !IsGameOpen(now, g)
  {
    var open := OpenGames(now, games);
    if |open| > 0 {
      assert open[0] in open;
    }
  }

  lemma JoinedLabelsAreNotClosedText(labels: seq<string>, r: string, last: Game)
    requires |labels| > 0 && labels[|labels| - 1] == TickerLabel(last)
    requires EndsWith(r, labels[|labels| - 1])
    ensures r != ClosedTicker
  {
    var lastLabel := TickerLabel(last);
    assert lastLabel[|lastLabel| - 1] == 'N';
    assert r[|r| - 1] == lastLabel[|lastLabel| - 1];
    assert ClosedTicker[|ClosedTicker| - 1] == 'n';
  }
}

=== FILE: nav.dfy ===
/** The bottom navigation bar (`BottomNav.tsx`): which tabs it shows and which one
    is highlighted for the current route. The admin flag comes from the backend and
    is a parameter.
 */
module Nav {
  import opened JsText

  datatype NavItem = NavItem(path: string, caption: string)

  const HomeItem: NavItem := NavItem("/", "Home")
  const PlayItem: NavItem := NavItem("/play", "Play")
  const WalletItem: NavItem := NavItem("/wallet", "Wallet")
  const HistoryItem: NavItem := NavItem("/history", "History")
  const ProfileItem: NavItem := NavItem("/profile", "Profile")

  /** `BASE_NAV_ITEMS`. */
  const BaseNavItems: seq<NavItem> := [HomeItem, PlayItem, WalletItem, HistoryItem, ProfileItem]

  /** `ADMIN_NAV_ITEM`. */
  const AdminNavItem: NavItem := NavItem("/admin", "Admin")

  /** `navItems`: the base tabs, with the admin tab appended for an admin. */
  function NavItems(isAdmin: bool): (r: seq<NavItem>)
    ensures |BaseNavItems| <= |r| && r[..|BaseNavItems|] == BaseNavItems
    ensures isAdmin <==> |r| == |BaseNavItems| + 1
    ensures isAdmin ==> r[|r| - 1] == AdminNavItem
    ensures !isAdmin ==> AdminNavItem !in r
    ensures !isAdmin ==> r == BaseNavItems
  {
    if isAdmin then BaseNavItems + [AdminNavItem] else BaseNavItems
  }

  /** A tab is highlighted when the route is exactly "/" for Home, and when the route
      starts with the tab's path for every other tab. */
  predicate IsActive(item: NavItem, currentPath: string) {
    if item.path == "/" then currentPath == "/" else StartsWith(currentPath, item.path)
  }

  /** Every tab but Home is highlighted exactly on its own path and the routes below
      it (and on any other route that merely starts with the same characters). */
  lemma ActiveIffExtendsPath(item: NavItem, currentPath: string)
    requires item.path != "/"
    ensures IsActive(item, currentPath) <==> exists rest :: currentPath == item.path + rest
  {
    if IsActive(item, currentPath) {
      var rest := currentPath[|item.path|..];
      assert currentPath == item.path + rest;
    }
    if exists rest :: currentPath == item.path + rest {
      var rest :| currentPath == item.path + rest;
      assert currentPath[..|item.path|] == item.path;
    }
  }

  /** Home is highlighted only on the root route itself. */
  lemma HomeActiveOnlyAtRoot(currentPath: string)
    ensures IsActive(HomeItem, currentPath) <==> currentPath == "/"
  {
  }

  /** Any route below a tab's path keeps that tab highlighted, so a game page
      "/play/<id>" highlights Play. */
  lemma {:induction false} DeepLinkActivatesTab(item: NavItem, rest: string)
    requires item in BaseNavItems + [AdminNavItem] && item != HomeItem
    ensures IsActive(item, item.path + rest)
  {
    assert (item.path + rest)[..|item.path|] == item.path;
  }

  lemma PlayDeepLink(gameId: string)
    ensures IsActive(PlayItem, "/play/" + gameId)
    ensures !IsActive(HomeItem, "/play/" + gameId)
  {
    assert "/play/" + gameId == PlayItem.path + ("/" + gameId);
    DeepLinkActivatesTab(PlayItem, "/" + gameId);
    assert ("/play/" + gameId)[1] == 'p';
  }

  /** Every tab the bar can show. */
  const AllNavItems: seq<NavItem> := BaseNavItems + [AdminNavItem]

  lemma NavItemsAreKnown(isAdmin: bool)
    ensures forall k :: 0 <= k < |NavItems(isAdmin)| ==> NavItems(isAdmin)[k] == AllNavItems[k]
  {
  }

  /** A string that starts with `prefix` agrees with it at every position of `prefix`. */
  lemma PrefixAgrees(s: string, prefix: string, n: nat)
    ensures StartsWith(s, prefix) && n < |prefix| ==> s[n] == prefix[n]
  {
    if StartsWith(s, prefix) && n < |prefix| {
      assert s[..|prefix|][n] == s[n];
    }
  }

  /** A route highlights at most one tab, whether or not the admin tab is shown: the
      tab paths other than Home's "/" already differ in their first three characters. */
  lemma AtMostOneActive(isAdmin: bool, currentPath: string, i: nat, j: nat)
    requires i < |NavItems(isAdmin)| && j < |NavItems(isAdmin)|
    requires IsActive(NavItems(isAdmin)[i], currentPath) && IsActive(NavItems(isAdmin)[j], currentPath)
    ensures i == j
  {
    NavItemsAreKnown(isAdmin);
    PrefixAgrees(currentPath, AllNavItems[i].path, 1);
    PrefixAgrees(currentPath, AllNavItems[i].path, 2);
    PrefixAgrees(currentPath, AllNavItems[j].path, 1);
    PrefixAgrees(currentPath, AllNavItems[j].path, 2);
  }
}

=== FILE: play.dfy ===
/** Bet entry on the play screen (`PlayPage.tsx`): payout multipliers, the
    potential-win preview and the checks run before a bet is confirmed. The login
    flag and the wallet balance come from the backend and are parameters here.
 */
module Play {
  import opened JsText

  datatype BetType = Open | Close | Jodi | Panel

  /** `BET_MULTIPLIERS`. */
  function Multiplier(t: BetType): nat {
    match t
    case Open => 9
    case Close => 9
    case Jodi => 90
    case Panel => 150
  }

  /** `Number.parseInt(text) || 0`: `NaN` becomes 0. */
  function AmountOrZero(text: string): int {
    match ParseInt(text)
    case Some(v) => v
    case None => 0
  }

  /** The open and close bets pay the same; a jodi pays more and a panel most, as the
      bet descriptions promise (9x, 90x, 150x). */
  lemma MultiplierRanking()
    ensures Multiplier(Open) == Multiplier(Close) == 9
    ensures Multiplier(Close) < Multiplier(Jodi) < Multiplier(Panel)
    ensures forall t :: Multiplier(t) >= 9
  {
    forall t ensures Multiplier(t) >= 9 {
      match t
      case Open =>
      case Close =>
      case Jodi =>
      case Panel =>
    }
  }

  /** `potentialWin`: no preview without a stake, and a non-negative stake previews at
      least nine times itself. */
  function PotentialWin(betAmount: string, t: BetType): (r: int)
    ensures r == 0 <==> AmountOrZero(betAmount) == 0
    ensures AmountOrZero(betAmount) >= 0 ==> r >= 9 * AmountOrZero(betAmount)
  {
    MultiplierRanking();
    MultiplyMonotone(9, Multiplier(t), AmountOrZero(betAmount));
    AmountOrZero(betAmount) * Multiplier(t)
  }

  /** The preview for an amount typed in the (digits-only) amount box is that amount
      times the bet type's multiplier; text with no leading number previews 0. */
  lemma PotentialWinOfTypedAmount(n: nat, t: BetType)
    ensures PotentialWin(DecimalString(n), t) == n * Multiplier(t)
    ensures PotentialWin("", t) == 0
  {
    ParseIntDecimal(n);
  }

  /** A larger stake never previews a smaller win. */
  lemma PotentialWinMonotone(a: string, b: string, t: BetType)
    requires AmountOrZero(a) <= AmountOrZero(b)
    ensures PotentialWin(a, t) <= PotentialWin(b, t)
  {
    var m := Multiplier(t);
    assert AmountOrZero(a) * m <= AmountOrZero(b) * m by {
      MultiplyMonotone(AmountOrZero(a), AmountOrZero(b), m);
    }
  }

  lemma MultiplyMonotone(x: int, y: int, m: int)
    requires x <= y
    ensures m >= 0 ==> x * m <= y * m
    ensures m <= 0 ==> y * m <= x * m
  {
    assert y * m - x * m == (y - x) * m;
  }

  // ---------------------------------------------------------------------------
  // Validation

  datatype BetError =
    | NotLoggedIn
    | MissingNumber
    | BelowMinimum
    | InsufficientBalance
    | NotOneDigit
    | NotTwoDigits
    | NotThreeDigits

  function Message(e: BetError): string {
    match e
    case NotLoggedIn => "Bet lagane ke liye pehle login karein"
    case MissingNumber => "Please enter a bet number"
    case BelowMinimum => "Minimum bet amount is \U{20B9}10"
    case InsufficientBalance => "Insufficient wallet balance"
    case NotOneDigit => "Enter a single digit (0-9) for open/close"
    case NotTwoDigits => "Enter a 2-digit number (00-99) for jodi"
    case NotThreeDigits => "Enter a 3-digit panel number"
  }

  /** Each refusal has a toast of its own. */
  lemma MessagesAreDistinct(a: BetError, b: BetError)
    ensures Message(a) == Message(b) ==> a == b
  {
  }

  const MinimumBet: int := 10

  /** How many digits the guessed number of each bet type has. */
  function DigitsFor(t: BetType): nat {
    match t
    case Open => 1
    case Close => 1
    case Jodi => 2
    case Panel => 3
  }

  function ShapeError(t: BetType): BetError {
    match t
    case Open => NotOneDigit
    case Close => NotOneDigit
    case Jodi => NotTwoDigits
    case Panel => NotThreeDigits
  }

  /** `/^\d$/`, `/^\d{2}$/`, `/^\d{3}$/`: exactly that many decimal digits. */
  predicate NumberFits(t: BetType, betNumber: string) {
    |betNumber| == DigitsFor(t) && AllDigits(betNumber)
  }

  /** A stake the amount check accepts. */
  predicate AmountAllowed(betAmount: string, balance: int) {
    ParseInt(betAmount).Some? && MinimumBet <= ParseInt(betAmount).value <= balance
  }

  /** `validate()`: the first failing check in the order login, bet number present,
      minimum stake, balance, number shape; `None` when the bet may be placed. */
  function Validate(loggedIn: bool, t: BetType, betNumber: string, betAmount: string, balance: int): (r: Option<BetError>)
    ensures r.None? <==> loggedIn && AmountAllowed(betAmount, balance) && NumberFits(t, betNumber)
    ensures r == Some(NotLoggedIn) <==> !loggedIn
    ensures r == Some(MissingNumber) <==> loggedIn && IsBlank(betNumber)
    ensures r == Some(BelowMinimum) <==>
      loggedIn && !IsBlank(betNumber) && (ParseInt(betAmount).None? || ParseInt(betAmount).value < MinimumBet)
    ensures r == Some(InsufficientBalance) <==>
      loggedIn && !IsBlank(betNumber) && ParseInt(betAmount).Some? && MinimumBet <= ParseInt(betAmount).value
      && ParseInt(betAmount).value > balance
    ensures r.Some? && r.value == ShapeError(t) ==> loggedIn && AmountAllowed(betAmount, balance) && !NumberFits(t, betNumber)
    ensures loggedIn && !IsBlank(betNumber) && AmountAllowed(betAmount, balance) && !NumberFits(t, betNumber) ==>
      r == Some(ShapeError(t))
  {
    NonEmptyDigitsAreNotBlank(betNumber);
    var amount := ParseInt(betAmount);
    if !loggedIn then Some(NotLoggedIn)
    else if IsBlank(betNumber) then Some(MissingNumber)
    else if amount.None? || amount.value < MinimumBet then Some(BelowMinimum)
    else if amount.value > balance then Some(InsufficientBalance)
    else ShapeCheck(t, betNumber)
  }

  /** The three shape checks at the end of `validate()`, in their order: together they
      accept exactly the numbers that fit the bet type, and a refusal names its type. */
  function ShapeCheck(t: BetType, betNumber: string): (r: Option<BetError>)
    ensures r.None? <==> NumberFits(t, betNumber)
    ensures r.Some? ==> r.value == ShapeError(t)
  {
    if (t == Open || t == Close) && !(|betNumber| == 1 && AllDigits(betNumber)) then Some(NotOneDigit)
    else if t == Jodi && !(|betNumber| == 2 && AllDigits(betNumber)) then Some(NotTwoDigits)
    else if t == Panel && !(|betNumber| == 3 && AllDigits(betNumber)) then Some(NotThreeDigits)
    else None
  }

  lemma NonEmptyDigitsAreNotBlank(s: string)
    ensures AllDigits(s) && |s| > 0 ==> !IsBlank(s)
  {
    if AllDigits(s) && |s| > 0 {
      assert !IsSpace(s[0]);
    }
  }
}

=== FILE: profile.dfy ===
/** The sign-in forms of the profile screen (`ProfilePage.tsx`): the e-mail check
    before the role dialog, the arguments of the Google login call, phone login and
    registration checks, and how backend error messages are sorted into toasts.
    The backend calls themselves are outside this model.
 */
module Profile {
  import opened JsText

  // ---------------------------------------------------------------------------
  // E-mail

  /** A character of `[^\s@]`. */
  predicate IsEmailChar(c: char) {
    c != '@' && !IsSpace(c)
  }

  predicate AllEmailChars(s: string) {
    forall i :: 0 <= i < |s| ==> IsEmailChar(s[i])
  }

  /** Some '.' of `domain` has at least one character on each side. */
  predicate HasInnerDot(domain: string) {
    exists k :: 0 < k < |domain| - 1 && domain[k] == '.'
  }

  /** The check of `handleGoogleContinue`: split at the first '@'; the part before
      must be non-empty, neither part may hold '@' or whitespace, and the part after
      needs an inner '.'. */
  function IsValidEmail(email: string): bool {
    var at := IndexOf(email, '@');
    && 0 < at < |email|
    && AllEmailChars(email[..at])
    && AllEmailChars(email[at + 1..])
    && HasInnerDot(email[at + 1..])
  }

  /** The regular expression `^[^\s@]+@[^\s@]+\.[^\s@]+$` read position by position:
      an '@' at `a` and a '.' at `d`, every run between them non-empty, and no other
      '@' or whitespace anywhere. */
  ghost predicate MatchesEmailPattern(email: string) {
    exists a, d ::
      && 0 < a && a + 1 < d && d + 1 < |email|
      && email[a] == '@' && email[d] == '.'
      && forall i :: 0 <= i < |email| && i != a ==> IsEmailChar(email[i])
  }

  /** The split-based check accepts exactly the strings the pattern matches. */
  lemma EmailCheckMatchesPattern(email: string)
    ensures IsValidEmail(email) <==> MatchesEmailPattern(email)
  {
    var at := IndexOf(email, '@');
    if IsValidEmail(email) {
      var domain := email[at + 1..];
      var k :| 0 < k < |domain| - 1 && domain[k] == '.';
      var d := at + 1 + k;
      assert email[d] == domain[k];
      forall i | 0 <= i < |email| && i != at
        ensures IsEmailChar(email[i])
      {
        if i < at {
          assert email[i] == email[..at][i];
        } else {
          assert email[i] == domain[i - at - 1];
        }
      }
      assert MatchesEmailPattern(email);
    }
    if MatchesEmailPattern(email) {
      var a, d :| && 0 < a && a + 1 < d && d + 1 < |email|
                  && email[a] == '@' && email[d] == '.'
                  && forall i :: 0 <= i < |email| && i != a ==> IsEmailChar(email[i]);
      assert forall i :: 0 <= i < |email| && email[i] == '@' ==> i == a;
      assert at <= a by {
        assert email[a] == '@';
      }
      assert at == a;
      var domain := email[a + 1..];
      assert domain[d - a - 1] == '.';
      assert AllEmailChars(email[..a]) by {
        forall i | 0 <= i < a ensures IsEmailChar(email[..a][i]) {
          assert email[..a][i] == email[i];
        }
      }
      assert AllEmailChars(domain) by {
        forall i | 0 <= i < |domain| ensures IsEmailChar(domain[i]) {
          assert domain[i] == email[a + 1 + i];
        }
      }
    }
  }

  // ---------------------------------------------------------------------------
  // Google login

  datatype Role = UserRole | AdminRole

  datatype GoogleArgs = GoogleArgs(email: string, displayName: string, wantsAdmin: bool, adminCode: string)

  datatype SignInError =
    | InvalidEmail
    | NoRoleSelected
    | MissingAdminCode
    | InvalidPhone
    | InvalidRegisterPhone
    | ShortPassword
    | MissingName
    | PasswordMismatch

  function Message(e: SignInError): string {
    match e
    case InvalidEmail => "Sahi email address daalen (jaise: name@gmail.com)"
    case NoRoleSelected => "Pehle apna role select karein"
    case MissingAdminCode => "Admin code daalen"
    case InvalidPhone => "10-digit phone number daalen"
    case InvalidRegisterPhone => "Valid 10-digit phone number daalen"
    case ShortPassword => "Password kam se kam 6 characters ka hona chahiye"
    case MissingName => "Apna naam daalen"
    case PasswordMismatch => "Dono passwords match nahin kar rahe"
  }

  datatype Result<T> = Ok(value: T) | Err(error: SignInError)

  /** `handleGoogleContinue`: the role dialog opens only for a valid address. */
  function GoogleContinue(email: string): (r: Option<SignInError>)
    ensures r.None? <==> MatchesEmailPattern(email)
    ensures r.Some? ==> r.value == InvalidEmail
  {
    EmailCheckMatchesPattern(email);
    if IsValidEmail(email) then None else Some(InvalidEmail)
  }

  /** `email.split("@")[0]`: everything before the first '@'. */
  function LocalPart(email: string): (r: string)
    ensures '@' !in r
    ensures StartsWith(email, r)
    ensures |r| < |email| ==> email[|r|] == '@'
  {
    email[..IndexOf(email, '@')]
  }

  /** `handleGoogleLogin`: refuses without a role, and refuses the admin role with a
      blank code; otherwise the call's arguments. */
  function GoogleLogin(email: string, role: Option<Role>, adminCode: string): (r: Result<GoogleArgs>)
    ensures r.Err? <==> role.None? || (role == Some(AdminRole) && AllSpace(adminCode))
    ensures role.None? ==> r == Err(NoRoleSelected)
    ensures role.Some? && r.Err? ==> r == Err(MissingAdminCode)
    ensures r.Ok? ==>
      && r.value.email == email
      && r.value.displayName == LocalPart(email)
      && (r.value.wantsAdmin <==> role == Some(AdminRole))
      && (r.value.wantsAdmin ==> r.value.adminCode == Trim(adminCode) && r.value.adminCode != "")
      && (!r.value.wantsAdmin ==> r.value.adminCode == "")
    ensures r.Ok? && IsValidEmail(email) ==> |r.value.displayName| > 0 && AllEmailChars(r.value.displayName)
  {
    if role.None? then Err(NoRoleSelected)
    else if role == Some(AdminRole) && IsBlank(adminCode) then Err(MissingAdminCode)
    else
      var displayName := LocalPart(email);
      Ok(GoogleArgs(email, displayName, role == Some(AdminRole),
                    if role == Some(AdminRole) then Trim(adminCode) else ""))
  }

  /** How `handleGoogleLogin` reads a failed call. */
  datatype GoogleFailure = AdminCodeRejected | AlreadyRegistered | OtherFailure

  predicate MentionsAdminCode(msg: string) {
    || Contains(msg, "Invalid admin")
    || Contains(msg, "admin code")
    || Contains(msg, "wrong code")
    || Contains(ToLower(msg), "unauthorized")
  }

  function ClassifyGoogleFailure(msg: string): (r: GoogleFailure)
    ensures r == AdminCodeRejected <==> MentionsAdminCode(msg)
    ensures r == AlreadyRegistered ==> Contains(msg, "already") || Contains(msg, "exists")
    ensures r == OtherFailure ==>
      !MentionsAdminCode(msg) && !Contains(msg, "already") && !Contains(msg, "exists")
  {
    if MentionsAdminCode(msg) then AdminCodeRejected
    else if Contains(msg, "already") || Contains(msg, "exists") then AlreadyRegistered
    else OtherFailure
  }

  function GoogleFailureMessage(f: GoogleFailure): string {
    match f
    case AdminCodeRejected => "Admin code galat hai. Dobara try karein."
    case AlreadyRegistered => "Yeh email pehle se registered hai. Login ho raha hai..."
    case OtherFailure => "Login failed. Dobara try karein."
  }

  /** An admin-code complaint wins even when the message also says "already" or
      "exists": such a failure is never retried as a plain user. */
  lemma AdminCodeComplaintTakesPrecedence(msg: string)
    requires MentionsAdminCode(msg)
    ensures ClassifyGoogleFailure(msg) == AdminCodeRejected
    ensures ClassifyGoogleFailure(msg) != AlreadyRegistered
  {
  }

  /** "unauthorized" is recognised in any letter case. */
  lemma {:induction false} UnauthorizedInAnyCase(msg: string, word: string)
    requires ToLower(word) == "unauthorized"
    requires Contains(msg, word)
    ensures ClassifyGoogleFailure(msg) == AdminCodeRejected
  {
    ContainsLowered(msg, word);
  }

  /** On "already registered" the page retries as a plain user. */
  function RetryAsUser(args: GoogleArgs): (r: GoogleArgs)
    ensures r.email == args.email && r.displayName == args.displayName
    ensures !r.wantsAdmin && r.adminCode == ""
  {
    GoogleArgs(args.email, args.displayName, false, "")
  }

  /** The retry after "already registered" is the call a plain user would have made
      in the first place, whichever role was picked. */
  lemma RetryIsPlainUserLogin(email: string, role: Role, adminCode: string)
    requires GoogleLogin(email, Some(role), adminCode).Ok?
    ensures RetryAsUser(GoogleLogin(email, Some(role), adminCode).value) == GoogleLogin(email, Some(UserRole), "").value
  {
  }

  /** Each sign-in refusal has a toast of its own. */
  lemma MessagesAreDistinct(a: SignInError, b: SignInError)
    ensures Message(a) == Message(b) ==> a == b
  {
  }

  /** The three Google outcomes show three different toasts. */
  lemma GoogleFailureMessagesAreDistinct(a: GoogleFailure, b: GoogleFailure)
    ensures GoogleFailureMessage(a) == GoogleFailureMessage(b) ==> a == b
  {
  }

  // ---------------------------------------------------------------------------
  // Phone login and registration

  const MinimumPasswordLength: nat := 6

  /** `/^\d{10}$/`. */
  predicate IsPhoneNumber(phone: string) {
    |phone| == 10 && AllDigits(phone)
  }

  /** `handleLogin`: phone first, then password length. */
  function ValidateLogin(phone: string, password: string): (r: Option<SignInError>)
    ensures r.None? <==> IsPhoneNumber(phone) && |password| >= MinimumPasswordLength
    ensures !IsPhoneNumber(phone) ==> r == Some(InvalidPhone)
    ensures IsPhoneNumber(phone) && r.Some? ==> r == Some(ShortPassword)
  {
    if !IsPhoneNumber(phone) then Some(InvalidPhone)
    else if |password| < MinimumPasswordLength then Some(ShortPassword)
    else None
  }

  /** `handleRegister`: name, phone, password length, confirmation, in that order. */
  function ValidateRegister(name: string, phone: string, password: string, confirm: string): (r: Option<SignInError>)
    ensures r.None? <==>
      !AllSpace(name) && IsPhoneNumber(phone) && |password| >= MinimumPasswordLength && password == confirm
    ensures AllSpace(name) ==> r == Some(MissingName)
    ensures !AllSpace(name) && !IsPhoneNumber(phone) ==> r == Some(InvalidRegisterPhone)
    ensures !AllSpace(name) && IsPhoneNumber(phone) && |password| < MinimumPasswordLength ==> r == Some(ShortPassword)
    ensures r == Some(PasswordMismatch) ==> password != confirm && |password| >= MinimumPasswordLength
    ensures !AllSpace(name) && IsPhoneNumber(phone) && |password| >= MinimumPasswordLength && password != confirm ==>
      r == Some(PasswordMismatch)
  {
    if IsBlank(name) then Some(MissingName)
    else if !IsPhoneNumber(phone) then Some(InvalidRegisterPhone)
    else if |password| < MinimumPasswordLength then Some(ShortPassword)
    else if password != confirm then Some(PasswordMismatch)
    else None
  }

  /** How `handleLogin` reads a failed call. */
  datatype LoginFailure = WrongCredentials | LoginFailed

  function LoginFailureMessage(f: LoginFailure): string {
    match f
    case WrongCredentials => "Phone ya password galat hai"
    case LoginFailed => "Login failed. Dobara try karein."
  }

  function ClassifyLoginFailure(msg: string): (r: LoginFailure)
    ensures r == WrongCredentials <==>
      Contains(msg, "Invalid") || Contains(msg, "invalid") || Contains(msg, "not found")
  {
    if Contains(msg, "Invalid") || Contains(msg, "invalid") || Contains(msg, "not found") then WrongCredentials
    else LoginFailed
  }

  /** How `handleRegister` reads a failed call. */
  datatype RegisterFailure = PhoneTaken | RegisterFailed

  function RegisterFailureMessage(f: RegisterFailure): string {
    match f
    case PhoneTaken => "Yeh phone number pehle se registered hai. Login karein."
    case RegisterFailed => "Registration failed. Dobara try karein."
  }

  function ClassifyRegisterFailure(msg: string): (r: RegisterFailure)
    ensures r == PhoneTaken <==>
      Contains(msg, "already") || Contains(msg, "exists") || Contains(msg, "registered")
  {
    if Contains(msg, "already") || Contains(msg, "exists") || Contains(msg, "registered") then PhoneTaken
    else RegisterFailed
  }

  /** A backend message that reads as wrong credentials still does inside a longer
      message. */
  lemma WrongCredentialsInAnyWording(before: string, msg: string, after: string)
    requires ClassifyLoginFailure(msg) == WrongCredentials
    ensures ClassifyLoginFailure(before + msg + after) == WrongCredentials
  {
    if Contains(msg, "Invalid") {
      ContainsInContext(before, msg, after, "Invalid");
    } else if Contains(msg, "invalid") {
      ContainsInContext(before, msg, after, "invalid");
    } else {
      ContainsInContext(before, msg, after, "not found");
    }
  }

  /** Likewise a message that reads as a taken phone number. */
  lemma PhoneTakenInAnyWording(before: string, msg: string, after: string)
    requires ClassifyRegisterFailure(msg) == PhoneTaken
    ensures ClassifyRegisterFailure(before + msg + after) == PhoneTaken
  {
    if Contains(msg, "already") {
      ContainsInContext(before, msg, after, "already");
    } else if Contains(msg, "exists") {
      ContainsInContext(before, msg, after, "exists");
    } else {
      ContainsInContext(before, msg, after, "registered");
    }
  }

  /** A message the Google flow reads as "already registered" is one the phone
      registration also reads as a taken account. */
  lemma AlreadyRegisteredAgrees(msg: string)
    requires ClassifyGoogleFailure(msg) == AlreadyRegistered
    ensures ClassifyRegisterFailure(msg) == PhoneTaken
  {
  }

  /** The two phone-flow outcomes of each form show different toasts. */
  lemma FailureMessagesAreDistinct(a: LoginFailure, b: LoginFailure, c: RegisterFailure, d: RegisterFailure)
    ensures LoginFailureMessage(a) == LoginFailureMessage(b) ==> a == b
    ensures RegisterFailureMessage(c) == RegisterFailureMessage(d) ==> c == d
  {
  }
}

=== FILE: wallet_forms.dfy ===
/** The wallet screen (`WalletPage.tsx`): the card and expiry formatters applied
    while typing, and the add-money and withdrawal buttons, which validate their
    form fields and then call the local wallet. Toasts are reduced to the error
    each path reports; the balance checked is the one the screen shows, which is
    the store's balance.
 */
module WalletForms {
  import opened JsText
  import opened Ledger

  // ---------------------------------------------------------------------------
  // Formatters

  const CardDigits: nat := 16
  const ExpiryDigits: nat := 4

  /** `digits.replace(/(\d{4})(?=\d)/g, "$1 ")`: a space after every group of four
      digits that another digit follows. */
  function GroupFours(d: string): string
    decreases |d|
  {
    if |d| > 4 then d[..4] + " " + GroupFours(d[4..]) else d
  }

  lemma {:induction false} GroupFoursKeepsDigits(d: string)
    requires AllDigits(d)
    ensures KeepDigits(GroupFours(d)) == d
    decreases |d|
  {
    if |d| > 4 {
      GroupFoursKeepsDigits(d[4..]);
      KeepDigitsConcat(d[..4] + " ", GroupFours(d[4..]));
      KeepDigitsConcat(d[..4], " ");
      DigitsAreKept(d[..4]);
      assert KeepDigits(" ") == [];
      assert d == d[..4] + d[4..];
    } else {
      DigitsAreKept(d);
    }
  }

  lemma {:induction false} GroupFoursLayout(d: string)
    requires AllDigits(d)
    ensures |GroupFours(d)| == |d| + (if |d| == 0 then 0 else (|d| - 1) / 4)
    ensures forall i :: 0 <= i < |GroupFours(d)| ==> (GroupFours(d)[i] == ' ' <==> i % 5 == 4)
    decreases |d|
  {
    if |d| > 4 {
      var rest := GroupFours(d[4..]);
      GroupFoursLayout(d[4..]);
      var r := d[..4] + " " + rest;
      forall i | 0 <= i < |r|
        ensures r[i] == ' ' <==> i % 5 == 4
      {
        if i < 4 {
          assert r[i] == d[i];
        } else if i > 4 {
          assert r[i] == rest[i - 5];
          assert (i - 5) % 5 == i % 5;
        }
      }
    } else {
      assert forall i :: 0 <= i < |d| ==> d[i] != ' ' by {
        forall i | 0 <= i < |d| ensures d[i] != ' ' {
          assert IsDigit(d[i]);
        }
      }
    }
  }

  /** `formatCardNumber`: the first sixteen digits typed, in order, with a space
      after each full group of four that more digits follow. */
  function FormatCardNumber(value: string): (r: string)
    ensures KeepDigits(r) == Take(KeepDigits(value), CardDigits)
    ensures |r| <= 19
    ensures forall i :: 0 <= i < |r| ==> (r[i] == ' ' <==> i % 5 == 4)
    ensures forall i :: 0 <= i < |r| ==> IsDigit(r[i]) || r[i] == ' '
    ensures var n := |Take(KeepDigits(value), CardDigits)|; |r| == n + (if n == 0 then 0 else (n - 1) / 4)
    ensures |r| > 0 ==> r[|r| - 1] != ' '
  {
    var d := Take(KeepDigits(value), CardDigits);
    GroupFoursKeepsDigits(d);
    GroupFoursLayout(d);
    GroupFoursCharacters(d);
    NoSpaceAtEnd(|d|);
    GroupFours(d)
  }

  /** A grouped run of `n > 0` digits ends on a digit position: its last index is not
      one of the space positions 4, 9, 14, ... */
  lemma NoSpaceAtEnd(n: nat)
    ensures n > 0 ==> (n + (n - 1) / 4 - 1) % 5 != 4
  {
    if n > 0 {
      var q, t := (n - 1) / 4, (n - 1) % 4;
      assert n - 1 == 4 * q + t;
      assert n + q - 1 == 5 * q + t;
    }
  }

  lemma {:induction false} GroupFoursCharacters(d: string)
    requires AllDigits(d)
    ensures forall i :: 0 <= i < |GroupFours(d)| ==> IsDigit(GroupFours(d)[i]) || GroupFours(d)[i] == ' '
    decreases |d|
  {
    if |d| > 4 {
      GroupFoursCharacters(d[4..]);
      var rest := GroupFours(d[4..]);
      var r := d[..4] + " " + rest;
      forall i | 0 <= i < |r|
        ensures IsDigit(r[i]) || r[i] == ' '
      {
        if i > 4 {
          assert r[i] == rest[i - 5];
        }
      }
    }
  }

  /** Reformatting a formatted card number changes nothing. */
  lemma FormatCardNumberIdempotent(value: string)
    ensures FormatCardNumber(FormatCardNumber(value)) == FormatCardNumber(value)
  {
  }

  /** The card check of the Stripe form, applied to a formatted field, passes
      exactly when at least sixteen digits were typed. */
  lemma CardCheckOnFormattedField(value: string)
    ensures |RemoveSpaces(FormatCardNumber(value))| >= CardDigits <==> |KeepDigits(value)| >= CardDigits
  {
    RemoveSpacesKeepsDigits(FormatCardNumber(value));
  }

  /** `formatExpiry`: at most four digits, written `MM/Y` or `MM/YY` once a third
      digit is typed. */
  function FormatExpiry(value: string): (r: string)
    ensures |r| <= 5
    ensures KeepDigits(r) == Take(KeepDigits(value), ExpiryDigits)
    ensures |r| == 5 <==> |KeepDigits(value)| >= ExpiryDigits
    ensures |KeepDigits(value)| >= 3 ==> |r| >= 4 && r[2] == '/'
    ensures |KeepDigits(value)| < 3 ==> r == KeepDigits(value)
  {
    var digits := Take(KeepDigits(value), ExpiryDigits);
    if |digits| >= 3 then
      ExpiryKeepsDigits(digits);
      digits[..2] + "/" + digits[2..]
    else
      DigitsAreKept(digits);
      digits
  }

  lemma ExpiryKeepsDigits(d: string)
    requires AllDigits(d) && |d| >= 2
    ensures KeepDigits(d[..2] + "/" + d[2..]) == d
  {
    KeepDigitsConcat(d[..2] + "/", d[2..]);
    KeepDigitsConcat(d[..2], "/");
    DigitsAreKept(d[..2]);
    DigitsAreKept(d[2..]);
    assert KeepDigits("/") == [];
    assert d == d[..2] + d[2..];
  }

  /** Reformatting a formatted expiry changes nothing. */
  lemma FormatExpiryIdempotent(value: string)
    ensures FormatExpiry(FormatExpiry(value)) == FormatExpiry(value)
  {
  }

  // ---------------------------------------------------------------------------
  // Buttons

  datatype FormError =
    | AddBelowMinimum
    | WithdrawBelowMinimum
    | InvalidUpiId
    | MissingBankDetails
    | InvalidCardNumber
    | MissingCardHolder
    | InvalidExpiry
    | InvalidCvv
    | OverBalance
    | Declined(message: string)

  function Message(e: FormError): string {
    match e
    case AddBelowMinimum => "Minimum add amount is \U{20B9}100"
    case WithdrawBelowMinimum => "Minimum withdrawal is \U{20B9}100"
    case InvalidUpiId => "Please enter a valid UPI ID (e.g. name@upi)"
    case MissingBankDetails => "Please fill all bank details"
    case InvalidCardNumber => "Please enter a valid 16-digit card number"
    case MissingCardHolder => "Please enter the cardholder name"
    case InvalidExpiry => "Please enter a valid expiry date (MM/YY)"
    case InvalidCvv => "Please enter a valid CVV"
    case OverBalance => "Insufficient balance"
    case Declined(message) => if message == "" then "Withdrawal failed" else message
  }

  /** The page's own refusals each have a toast of their own. */
  lemma PageMessagesAreDistinct(a: FormError, b: FormError)
    requires !a.Declined? && !b.Declined?
    ensures Message(a) == Message(b) ==> a == b
  {
  }

  /** The wallet after pressing a button, and the error toast shown, if any. */
  datatype Submission = Submission(store: Store, error: Option<FormError>)

  const MinimumAmount: int := 100

  /** `!amt || amt < 100` is false: a number of at least 100 was typed. */
  predicate AmountAccepted(text: string) {
    ParseInt(text).Some? && ParseInt(text).value >= MinimumAmount
  }

  /** `handleAddMoney`. */
  function HandleAddMoney(s: Store, addAmount: string, now: int): (r: Submission)
    ensures r.error.None? <==> AmountAccepted(addAmount)
    ensures r.error.Some? ==> r == Submission(s, Some(AddBelowMinimum))
    ensures r.error.None? ==>
      var amt := ParseInt(addAmount).value;
      && Balance(r.store) == Balance(s) + amt
      && |Transactions(r.store)| == |Transactions(s)| + 1
      && Transactions(r.store)[0].kind == Credit && Transactions(r.store)[0].amount == amt
      && Transactions(r.store)[1..] == Transactions(s)
      && Withdrawals(r.store) == Withdrawals(s)
  {
    var amt := ParseInt(addAmount);
    if amt.None? || amt.value == 0 || amt.value < MinimumAmount then
      Submission(s, Some(AddBelowMinimum))
    else
      Submission(AddMoney(s, amt.value, now), None)
  }

  /** The `try { withdraw(...) } catch` around every withdrawal. */
  function Payout(s: Store, amt: int, payMethod: string, details: string, now: int): (r: Submission)
    ensures r.error.None? <==> amt <= Balance(s)
    ensures amt <= Balance(s) ==> PaidOut(s, r.store, amt, payMethod, details, now)
    ensures amt > Balance(s) ==>
      && r.error == Some(Declined("Insufficient balance"))
      && ViewOf(r.store) == ViewOf(s)
  {
    var out := Withdraw(s, amt, payMethod, details, now);
    match out.error
    case Some(e) => Submission(out.store, Some(Declined(ErrorMessage(e))))
    case None => Submission(out.store, None)
  }

  /** When the hook refuses a withdrawal, the caught error shows the same toast as the
      page's own balance check. */
  lemma HookRefusalShowsBalanceToast(s: Store, amt: int, payMethod: string, details: string, now: int)
    requires amt > Balance(s)
    ensures Message(Payout(s, amt, payMethod, details, now).error.value) == Message(OverBalance)
  {
  }

  /** `WithdrawalRow`: a row is shown as a card payout when its method starts "Stripe:". */
  predicate IsStripe(payMethod: string) {
    StartsWith(payMethod, "Stripe:")
  }

  /** The methods the three withdrawal forms write: only the card form's rows are
      shown as Stripe rows. */
  lemma {:induction false} StripeRowClassification(upiId: string, accNumber: string, last4: string)
    ensures !IsStripe("UPI: " + upiId)
    ensures !IsStripe("Bank: " + accNumber)
    ensures IsStripe("Stripe: ****" + last4)
  {
    assert ("UPI: " + upiId)[0] == 'U';
    assert ("Bank: " + accNumber)[0] == 'B';
    assert ("Stripe: ****" + last4)[..7] == "Stripe:";
  }

  /** What a successful withdrawal of `amt` left in the wallet. */
  predicate PaidOut(before: Store, after: Store, amt: int, payMethod: string, details: string, now: int) {
    && Balance(after) == Balance(before) - amt
    && Withdrawals(after) == [Withdrawal(now, amt, payMethod, details, Approved, now)] + Withdrawals(before)
    && Transactions(after) == [Transaction(now + 1, Debit, amt, "Withdrawal - " + payMethod, now)] + Transactions(before)
  }

  /** `handleWithdrawUpi`: amount, then an '@' in the UPI id, then the balance. */
  function HandleWithdrawUpi(s: Store, amountText: string, upiId: string, now: int): (r: Submission)
    ensures r.error.None? <==> AmountAccepted(amountText) && '@' in upiId && ParseInt(amountText).value <= Balance(s)
    ensures !AmountAccepted(amountText) ==> r == Submission(s, Some(WithdrawBelowMinimum))
    ensures AmountAccepted(amountText) && '@' !in upiId ==> r == Submission(s, Some(InvalidUpiId))
    ensures AmountAccepted(amountText) && '@' in upiId && ParseInt(amountText).value > Balance(s) ==>
      r == Submission(s, Some(OverBalance))
    ensures r.error.None? ==>
      && PaidOut(s, r.store, ParseInt(amountText).value, "UPI: " + upiId, "Withdrawal to UPI: " + upiId, now)
      && !IsStripe(Withdrawals(r.store)[0].payMethod)
  {
    ContainsChar(upiId, '@');
    var amt := ParseInt(amountText);
    if amt.None? || amt.value == 0 || amt.value < MinimumAmount then
      Submission(s, Some(WithdrawBelowMinimum))
    else if !Contains(upiId, "@") then
      Submission(s, Some(InvalidUpiId))
    else if amt.value > Balance(s) then
      Submission(s, Some(OverBalance))
    else
      var payMethod := "UPI: " + upiId;
      assert payMethod[0] == 'U';
      Payout(s, amt.value, payMethod, "Withdrawal to UPI: " + upiId, now)
  }

  /** `handleWithdrawBank`: amount, then all three bank fields filled, then the
      balance. The holder's name is required but not recorded. */
  function HandleWithdrawBank(s: Store, amountText: string, accNumber: string, ifscCode: string,
                              accHolder: string, now: int): (r: Submission)
    ensures r.error.None? <==>
      AmountAccepted(amountText) && accNumber != "" && ifscCode != "" && accHolder != ""
      && ParseInt(amountText).value <= Balance(s)
    ensures !AmountAccepted(amountText) ==> r == Submission(s, Some(WithdrawBelowMinimum))
    ensures AmountAccepted(amountText) && (accNumber == "" || ifscCode == "" || accHolder == "") ==>
      r == Submission(s, Some(MissingBankDetails))
    ensures AmountAccepted(amountText) && accNumber != "" && ifscCode != "" && accHolder != ""
            && ParseInt(amountText).value > Balance(s) ==>
      r == Submission(s, Some(OverBalance))
    ensures r.error.Some? ==> r.store == s
    ensures r.error.None? ==>
      && PaidOut(s, r.store, ParseInt(amountText).value, "Bank: " + accNumber,
                 "Withdrawal to Bank: " + accNumber + " | IFSC: " + ifscCode, now)
      && !IsStripe(Withdrawals(r.store)[0].payMethod)
  {
    var amt := ParseInt(amountText);
    if amt.None? || amt.value == 0 || amt.value < MinimumAmount then
      Submission(s, Some(WithdrawBelowMinimum))
    else if accNumber == "" || ifscCode == "" || accHolder == "" then
      Submission(s, Some(MissingBankDetails))
    else if amt.value > Balance(s) then
      Submission(s, Some(OverBalance))
    else
      var payMethod := "Bank: " + accNumber;
      assert payMethod[0] == 'B';
      Payout(s, amt.value, payMethod, "Withdrawal to Bank: " + accNumber + " | IFSC: " + ifscCode, now)
  }

  /** The card fields of the Stripe form. */
  datatype CardForm = CardForm(cardNumber: string, cardHolder: string, expiry: string, cvv: string)

  predicate CardFieldsValid(card: CardForm) {
    && |RemoveSpaces(card.cardNumber)| >= CardDigits
    && !IsBlank(card.cardHolder)
    && |card.expiry| >= 5
    && |card.cvv| >= 3
  }

  /** The last four characters of the card number once whitespace is removed. */
  function LastFour(cardNumber: string): string
    requires |RemoveSpaces(cardNumber)| >= 4
  {
    var raw := RemoveSpaces(cardNumber);
    raw[|raw| - 4..]
  }

  /** The first failing card check, in the order the form runs them. */
  function CardError(card: CardForm): (r: Option<FormError>)
    ensures r.None? <==> CardFieldsValid(card)
    ensures |RemoveSpaces(card.cardNumber)| < CardDigits ==> r == Some(InvalidCardNumber)
    ensures |RemoveSpaces(card.cardNumber)| >= CardDigits && IsBlank(card.cardHolder) ==> r == Some(MissingCardHolder)
    ensures |RemoveSpaces(card.cardNumber)| >= CardDigits && !IsBlank(card.cardHolder) && |card.expiry| < 5 ==>
      r == Some(InvalidExpiry)
    ensures |RemoveSpaces(card.cardNumber)| >= CardDigits && !IsBlank(card.cardHolder) && |card.expiry| >= 5 && |card.cvv| < 3 ==>
      r == Some(InvalidCvv)
  {
    if |RemoveSpaces(card.cardNumber)| < CardDigits then Some(InvalidCardNumber)
    else if IsBlank(card.cardHolder) then Some(MissingCardHolder)
    else if |card.expiry| < 5 then Some(InvalidExpiry)
    else if |card.cvv| < 3 then Some(InvalidCvv)
    else None
  }

  /** `handleWithdrawStripe`: amount, card number, holder, expiry, CVV, then the
      balance; the payout is recorded under the last four card digits. */
  function HandleWithdrawStripe(s: Store, amountText: string, card: CardForm, now: int): (r: Submission)
    ensures r.error.None? <==>
      AmountAccepted(amountText) && CardFieldsValid(card) && ParseInt(amountText).value <= Balance(s)
    ensures !AmountAccepted(amountText) ==> r == Submission(s, Some(WithdrawBelowMinimum))
    ensures AmountAccepted(amountText) && !CardFieldsValid(card) ==> r == Submission(s, CardError(card))
    ensures AmountAccepted(amountText) && CardFieldsValid(card) && ParseInt(amountText).value > Balance(s) ==>
      r == Submission(s, Some(OverBalance))
    ensures r.error.Some? ==> r.store == s
    ensures r.error.None? ==>
      && PaidOut(s, r.store, ParseInt(amountText).value, "Stripe: ****" + LastFour(card.cardNumber),
                 "Stripe card payout to **** **** **** " + LastFour(card.cardNumber), now)
      && IsStripe(Withdrawals(r.store)[0].payMethod)
  {
    var amt := ParseInt(amountText);
    if amt.None? || amt.value == 0 || amt.value < MinimumAmount then
      Submission(s, Some(WithdrawBelowMinimum))
    else if CardError(card).Some? then
      Submission(s, CardError(card))
    else if amt.value > Balance(s) then
      Submission(s, Some(OverBalance))
    else
      var last4 := LastFour(card.cardNumber);
      var payMethod := "Stripe: ****" + last4;
      assert payMethod[..7] == "Stripe:";
      Payout(s, amt.value, payMethod, "Stripe card payout to **** **** **** " + last4, now)
  }

  /** A form filled through the formatters passes the card-number and expiry checks
      exactly when sixteen card digits and four expiry digits were typed. */
  lemma FormattedCardFields(cardTyped: string, expiryTyped: string, holder: string, cvv: string)
    ensures var card := CardForm(FormatCardNumber(cardTyped), holder, FormatExpiry(expiryTyped), cvv);
      CardFieldsValid(card) <==>
        |KeepDigits(cardTyped)| >= CardDigits && |KeepDigits(expiryTyped)| >= ExpiryDigits
        && !IsBlank(holder) && |cvv| >= 3
  {
    CardCheckOnFormattedField(cardTyped);
  }
}
